=== FILE: README.md ===
# A Dafny model of the FPS movement prototype's gameplay scripts

This project models the gameplay core of a small first-person movement and shooting
prototype built on a game engine. It covers these scripts:

- **PlayerController**: grounded walking and sprinting, a buffered jump, and the four-state
  grapple machine (Normal, ThrowGrapple, Grappling, EndOfGrapple). It also handles
  out-of-bounds respawn and checkpoints.
- **Pistol** and **Shotgun**: hitscan weapons with a magazine, a fire-rate cooldown and
  a reload that an animation event completes. The shotgun casts six rays per shot and
  launches an airborne player backwards.
- **WeaponController**: the number-key weapon selector.
- **Enemy**: a health pool with no floor, destroyed on the health check once at or
  below zero, crediting the player with a kill.
- **CameraFov**: field-of-view easing toward a target.
- **PauseMenu**: the pause toggle and the scene buttons.

Every script becomes a module of pure functions over immutable state records.

- **Engine values as inputs.** A frame's keys are a `FrameInput`. A physics tick's
  engine facts are a `PhysicsTick`: the ground check, the rigid body's position and
  velocity, the camera-relative move direction, the grapple raycast, the distance to
  the grapple point, and the elapsed time.
- **Impulses.** Each impulse the player's rigid body receives is appended to a `kicks`
  log instead of being integrated.
- **Shots.** A shot returns the list of `Effect`s it has on other objects: a knockback
  impulse or damage. `Hitscan.Deliver` applies the damage to a map of enemies.

Modules: `Wrappers` and `Vectors` (helpers), `CameraFov`, `PauseMenu`, `Player`
(PlayerController), `PlayerProofs` (multi-step properties of the player), `Enemy`,
`Weapon` (the gun state both weapons share), `Hitscan` (per-ray dispatch), `Pistol`,
`Shotgun` and `WeaponController`.

Behaviour worth knowing:

- **Weapon frame order.** The pistol counts its cooldown down before deciding to fire.
  The shotgun decides first and counts down afterwards. So right after a shotgun shot
  the cooldown already reads `FireRate - dt`, not `FireRate`. The model follows the code.
- **Jump buffer floor.** The airborne jump buffer is not clamped at -0.1. It stops
  counting down once it is at or below -0.1, so it comes to rest somewhere in
  (-0.1 - dt, -0.1]. The model follows the code (`Player.JumpBuffer`).
- **Restart-then-jump in EndOfGrapple.** The grapple restart runs before the cancel
  check. A right click together with a jump while hanging therefore leaves the machine
  in ThrowGrapple with no active grapple (`PlayerProofs.RestartThenJumpAtEnd`). A frame
  update would reset it to Normal. But the engine may run another physics tick first,
  and that tick keeps throwing from an empty rope. When the grapple point is within
  `50 * dt`, the player who just jumped off is pulled in again, with the grapple active,
  the rope hidden and the grapple field of view (`PlayerProofs.RegrappleAfterJumpOff`).
  For this reason the controller invariant `Player.Valid` does not include
  "ThrowGrapple implies an active grapple".
- **Only the pistol has OnEnable.** Switching back to the pistol abandons a reload in
  progress (`Pistol.SwitchBackFires`). The shotgun has no such hook. A shotgun put away
  mid-reload stays reloading, and cannot fire, until the animation event completes
  the reload (`Shotgun.StuckWhileReloading`).

## Model

| member | source | states |
|---|---|---|
| CameraFov.Lerp | Assets/Scripts/CameraFov.cs:21 | The eased value lies between the endpoints. The remaining gap to the target is the old gap times one minus the clamped factor. A factor of at least 1 lands on the target; a factor of at most 0 stays put. |
| CameraFov.Awake | Assets/Scripts/CameraFov.cs:13-17 | The camera starts at its own field of view with no gap to the target. |
| CameraFov.SetCameraFov | Assets/Scripts/CameraFov.cs:25-27 | Only the target changes; the current field of view is left for Update to ease. |
| CameraFov.Update | Assets/Scripts/CameraFov.cs:19-23 | The target is kept and the new field of view lies between the old one and the target. The gap never grows and shrinks by exactly the factor `1 - clamp(dt * 4)`. A frame of at least a quarter second reaches the target, and a camera already at its target stays there. |
| CameraFov.SettleApproaches | Assets/Scripts/CameraFov.cs:19-23 | Over any run of frames the field of view stays between its start and the target and never moves away from the target. |
| CameraFov.SettleStaysAtTarget | Assets/Scripts/CameraFov.cs:19-23 | A camera at its target stays unchanged over any run of frames. |
| CameraFov.RetargetSettles | Assets/Scripts/CameraFov.cs:13-27 | A camera started by Awake and then retargeted keeps the new target over any run of frames. Its field of view stays between the start and the target, and the gap never exceeds the initial distance to the new target. |
| PauseMenu.Start | Assets/Scripts/PauseMenu.cs:18-28 | Unpaused, menu hidden, time scale 1, and the pause flag agrees with the menu. |
| PauseMenu.ToggleMenu | Assets/Scripts/PauseMenu.cs:40-59 | The menu visibility flips. Showing it pauses with time scale 0 and hiding it unpauses with time scale 1. The result is always consistent. |
| PauseMenu.Update | Assets/Scripts/PauseMenu.cs:30-37 | The menu flips exactly when Escape is pressed, and consistency is kept. |
| PauseMenu.ToggleInvolution | Assets/Scripts/PauseMenu.cs:40-59 | From a consistent state, toggling twice restores the state exactly. |
| PauseMenu.ToggleParity | Assets/Scripts/PauseMenu.cs:30-59 | From the start state, after n Escape presses the game is paused exactly when n is odd. |
| PauseMenu.PressPractice | Assets/Scripts/PauseMenu.cs:62-67 | Unpauses with time scale 1 and loads "Practice Course". The menu flag is untouched, so the result is consistent exactly when the menu was hidden. |
| PauseMenu.PressOpenArea | Assets/Scripts/PauseMenu.cs:69-74 | Unpauses with time scale 1 and loads "Open Area", a different scene from the practice button's. The result is consistent exactly when the menu was hidden. |
| PauseMenu.ButtonsLeaveMenuVisible | Assets/Scripts/PauseMenu.cs:62-74 | Pressed from the open menu, either button leaves a visible menu over an unpaused game until the scene load runs Start again. |
| Player.Start | Assets/Scripts/PlayerController.cs:98-115 | The spawn point is the starting position. The player walks, stands in Normal with the grapple hidden and no kills, and satisfies the controller invariant. |
| Player.JumpBuffer | Assets/Scripts/PlayerController.cs:125-129 | Grounded refills the buffer to 0.2. Airborne, it counts down only while above -0.1 and is frozen otherwise. |
| Player.SelectSpeed | Assets/Scripts/PlayerController.cs:185-191 | On the ground, speed and air cap are equal, and they are the sprint speed exactly when shift is held. In the air both are kept. |
| Player.GetInputs | Assets/Scripts/PlayerController.cs:179-202 | The jump latches only when Space is pressed while the buffer is positive. The grapple request latches on right click. The grapple-jump latches on Space only while grappling. Latched requests are never cleared here. The grapple state is untouched. |
| Player.Update | Assets/Scripts/PlayerController.cs:118-135 | Paused changes nothing. Unpaused, the frame reads the inputs. The jump latches on Space with a positive buffer, as it stood before the count-down. The grapple request latches on right click, and the grapple-jump on Space while grappling. Speed and air cap follow the ground speed selection, and the move input is taken. The buffer then advances, from the ground flag of the last physics tick. With no active grapple the state is Normal; an active grapple keeps its state. Nothing else changes: position, velocity, the grapple point, rope size and visibility, the hanging point, impulses, camera, spawn point and kill count are untouched. |
| Player.MovePlayer | Assets/Scripts/PlayerController.cs:204-246 | On the ground the air cap follows the speed, the move direction is the world move times the speed, and the horizontal velocity comes from it while the vertical velocity is kept. In the air with a move input the move direction is the world move times 7; without one it is kept. A latched jump gives exactly one jump impulse and empties the buffer; without one, no impulse is given. Nothing but movement and the jump changes. |
| Player.NoInputNoGroundMove | Assets/Scripts/PlayerController.cs:207-216 | When the engine's world move is zero for a zero move input, a grounded player with no input gets a zero move direction and no horizontal velocity; the vertical velocity is kept. |
| Player.StartGrapple | Assets/Scripts/PlayerController.cs:265-294 | A pending request is always consumed. A hit starts a throw toward the hit point from an empty, visible rope. Otherwise nothing else changes. Only the grapple fields ever change. |
| Player.ThrowGrappleStep | Assets/Scripts/PlayerController.cs:297-318 | The rope grows by 50 * dt. The pull begins, with the camera retargeted to 100, exactly when the rope reaches the grapple point; otherwise state and camera are kept. Nothing but the rope, the state and the camera target changes. |
| Player.Clamp | Assets/Scripts/PlayerController.cs:330 | The result lies in the range and equals the input when the input is inside it. |
| Player.GrappleDirectionIsUnit | Assets/Scripts/PlayerController.cs:327 | When the engine's distance is the length of the offset to the grapple point, the grapple direction has length one. |
| Player.PullSpeedIsGrappleSpeed | Assets/Scripts/PlayerController.cs:327-336 | With such a distance, the pull velocity's length is exactly the clamped grapple speed. |
| Player.GrappleMovement | Assets/Scripts/PlayerController.cs:321-345 | The pull speed stays within [5, 40] and equals the distance inside that range. The velocity is overridden along the grapple direction. From Grappling, the machine moves to EndOfGrapple, capturing the current position, exactly when the distance is below 1. Nothing but the pull speed, the velocity and the arrival changes. |
| Player.EndOfGrappleHold | Assets/Scripts/PlayerController.cs:348-355 | The player is put on the captured point with the rope hidden. Nothing else changes: the velocity and the grapple state are untouched. |
| Player.StopGrapple | Assets/Scripts/PlayerController.cs:377-383 | The grapple is released and hidden, the air cap resets to 20, and the camera is retargeted to 80. Position, velocity and state are untouched. Nothing else changes. |
| Player.CancelGrapple | Assets/Scripts/PlayerController.cs:358-374 | Both requests are consumed. A grapple-jump adds exactly one upward impulse. Either request stops the grapple; with neither, nothing changes. Nothing but the requests, the impulse log and what StopGrapple resets changes. |
| Player.Sense | Assets/Scripts/PlayerController.cs:393-396 | The ground flag, position and velocity are the engine's for this tick, and nothing else changes. |
| Player.NormalHandlers | Assets/Scripts/PlayerController.cs:146-149 | Movement then the grapple check: the state stays or becomes ThrowGrapple, and at most one impulse is added to the log. |
| Player.ThrowHandlers | Assets/Scripts/PlayerController.cs:151-154 | The throw then movement: the state stays or becomes Grappling, and at most one impulse is added. |
| Player.PullHandlers | Assets/Scripts/PlayerController.cs:156-159 | The pull then the cancel check: the state stays or becomes EndOfGrapple, and at most one impulse is added. |
| Player.HoldHandlers | Assets/Scripts/PlayerController.cs:161-165 | The hold, the restart, then the cancel check: the state stays or becomes ThrowGrapple, and at most one impulse is added. |
| Player.Dispatch | Assets/Scripts/PlayerController.cs:144-166 | Each state only stays or moves to its successor: Normal to ThrowGrapple, ThrowGrapple to Grappling, Grappling to EndOfGrapple, and EndOfGrapple back to ThrowGrapple on a restart. A tick extends the impulse log by at most one entry. |
| Player.FixedUpdate | Assets/Scripts/PlayerController.cs:138-168 | Paused changes nothing. Each grapple state only stays or moves to its successor (EndOfGrapple back to ThrowGrapple on a restart), and a tick adds at most one impulse. The per-state effects are stated by the lemmas listed under Left out. |
| Player.OnCollisionEnter | Assets/Scripts/PlayerController.cs:399-416 | Out of bounds: back at the spawn point, at rest, in Normal, with the grapple stopped. Any other collision changes nothing. A respawn changes nothing but the body, the state and what StopGrapple resets; the jump latch, the buffer and the kill count are kept. |
| Player.OnTriggerEnter | Assets/Scripts/PlayerController.cs:419-426 | A checkpoint replaces the spawn point and nothing else; any other trigger changes nothing. |
| Player.SetMoveDirection | Assets/Scripts/PlayerController.cs:433-436 | The move direction becomes the given vector and nothing else changes. |
| Player.SetMaxAirSpeed | Assets/Scripts/PlayerController.cs:438-441 | The air cap becomes the given speed and nothing else changes. |
| Player.SetEnemiesKilled | Assets/Scripts/PlayerController.cs:443-446 | The kill counter rises by exactly the given amount and nothing else changes. |
| PlayerProofs.UpdateKeepsValid | Assets/Scripts/PlayerController.cs:118-135 | The frame update keeps the controller invariant. |
| PlayerProofs.FixedUpdateKeepsValid | Assets/Scripts/PlayerController.cs:138-168 | Every physics tick keeps the controller invariant, in all four grapple states. |
| PlayerProofs.CallbacksKeepValid | Assets/Scripts/PlayerController.cs:399-426 | The out-of-bounds collision and the checkpoint trigger keep the invariant. |
| PlayerProofs.SettersKeepValid | Assets/Scripts/PlayerController.cs:433-446 | The move-direction, air-cap and kill-counter setters the shotgun and the enemies call keep the invariant. |
| PlayerProofs.JumpBufferSettles | Assets/Scripts/PlayerController.cs:126-129 | Airborne, the buffer never increases and stops changing at or below -0.1. Grounded, it is full. |
| PlayerProofs.BufferedJumpFiresOnce | Assets/Scripts/PlayerController.cs:194-245 | A Space press with a positive buffer latches the jump. The next Normal or ThrowGrapple tick then applies exactly one jump impulse, clears the latch and empties the buffer. |
| PlayerProofs.JumpSpendsBuffer | Assets/Scripts/PlayerController.cs:238-245 | A jump taken in the air leaves the buffer spent: an airborne tick that consumes the latched jump leaves the player in the Spent condition. It does not cover a jump taken on the ground (see Findings). |
| PlayerProofs.NoJumpUntilGrounded | Assets/Scripts/PlayerController.cs:118-168 | Once the buffer is spent, no schedule of airborne physics ticks and frame updates, in any interleaving and with any number of ticks per frame, adds another ground jump, whatever keys are pressed. This covers a jump taken in the air (JumpSpendsBuffer); after a jump taken on the ground the code never reaches Spent (see Findings). It holds both as written and with the corrected jump. |
| PlayerProofs.JumpTickKicksOnce | Assets/Scripts/PlayerController.cs:238-245 | A tick that runs movement with a latched jump gives exactly one jump impulse, clears the latch and empties the buffer, and the ground flag is the tick's. |
| PlayerProofs.GroundJumpJumpsTwice | Assets/Scripts/PlayerController.cs:118-168 | As written: from the ground, Space, a grounded jump tick, a frame, an airborne tick, Space again and another airborne tick give two jump impulses. With the corrected jump the same schedule gives one. |
| PlayerProofs.GroundJumpOnce | Assets/Scripts/PlayerController.cs:238-245 | With the corrected jump, a jump taken on the ground or in the air leaves the buffer spent, and no schedule of airborne ticks and frames after it adds a second ground jump. |
| PlayerProofs.ThrowPhase | Assets/Scripts/PlayerController.cs:297-318 | A ThrowGrapple tick grows the rope by 50 * dt. It moves to Grappling, with camera target 100 and an active grapple, exactly when the rope reaches the distance; otherwise it stays in ThrowGrapple. |
| PlayerProofs.PullPhase | Assets/Scripts/PlayerController.cs:321-345 | A Grappling tick keeps the speed in [5, 40]. It reaches EndOfGrapple, capturing the sensed position, exactly when the distance is below 1; otherwise it stays in Grappling. |
| PlayerProofs.RightClickNeverCancelsAtEnd | Assets/Scripts/PlayerController.cs:161-165 | In EndOfGrapple a right click is consumed by the restart before the cancel check, so without a jump the grapple stays active. |
| PlayerProofs.GrappleJumpCancels | Assets/Scripts/PlayerController.cs:367-373 | A grapple-jump while grappling gives one upward impulse and stops the grapple. |
| PlayerProofs.RestartThenJumpAtEnd | Assets/Scripts/PlayerController.cs:161-165 | A right click plus a jump while hanging leaves ThrowGrapple with no active grapple, a hidden rope and one upward impulse. |
| PlayerProofs.RegrappleAfterJumpOff | Assets/Scripts/PlayerController.cs:151-165 | If a second physics tick follows before the frame update, and the grapple point is within `50 * dt`, the released player ends in Grappling. The grapple is active, the rope hidden, and the camera targets 100. |
| PlayerProofs.StopGrappleIdempotent | Assets/Scripts/PlayerController.cs:377-383 | Stopping twice is stopping once. |
| PlayerProofs.StopThenUpdateIsNormal | Assets/Scripts/PlayerController.cs:131-133 | After a stop, the next unpaused frame update returns the machine to Normal. |
| PlayerProofs.NoGrappleWithoutRequest | Assets/Scripts/PlayerController.cs:146-149 | A Normal tick with no grapple request stays in Normal and starts no grapple. |
| PlayerProofs.GrappleStartsFromNormal | Assets/Scripts/PlayerController.cs:146-149 | In Normal, movement runs first and takes a latched jump. A pending request whose ray hits then begins a throw toward the hit point from an empty, visible rope. |
| PlayerProofs.HoldAtEnd | Assets/Scripts/PlayerController.cs:161-165 | In EndOfGrapple with nothing pressed the player is put on the captured point with the rope hidden. The state, the grapple, impulses and camera are kept, and the velocity is the engine's (the hold does not zero it). |
| PlayerProofs.LastCheckpointWins | Assets/Scripts/PlayerController.cs:419-426 | After any run of trigger events the spawn point is the last checkpoint passed, or the original if none was. Nothing else changes. |
| PlayerProofs.RespawnAtCheckpoint | Assets/Scripts/PlayerController.cs:399-426 | Falling out of bounds after a checkpoint lands the player on that checkpoint, at rest, in Normal, with the grapple stopped. |
| Enemy.Start | Assets/Scripts/Enemy.cs:18-25 | The enemy starts at full health and not destroyed. |
| Enemy.TakeDamage | Assets/Scripts/Enemy.cs:43-46 | Health drops by exactly the damage, with no floor; a positive hit always lowers it. The capacity and the destroyed flag are untouched. |
| Enemy.FreshEnemySurvives | Assets/Scripts/Enemy.cs:18-40 | A freshly started enemy with positive health survives its health check unchanged and credits no kill. |
| Enemy.CheckHealth | Assets/Scripts/Enemy.cs:32-40 | At or below zero, a live enemy is destroyed and the kill counter rises by exactly one. Above zero, nothing changes. |
| Enemy.TakeAllSubtractsSum | Assets/Scripts/Enemy.cs:43-46 | A run of hits lowers health by exactly their total, with no floor, and touches nothing else. |
| Enemy.HitsCommute | Assets/Scripts/Enemy.cs:43-46 | The same hits in any order leave the enemy in the same state. |
| Enemy.KilledOnce | Assets/Scripts/Enemy.cs:32-40 | A kill is credited once; a further health check changes nothing. |
| Enemy.FiveHitsKill | Assets/Scripts/Enemy.cs:14-46 | From 50 health, four hits of 10 leave it alive. The fifth brings it to 0, and the check destroys it and credits one kill. |
| Hitscan.RayEffects | Assets/Scripts/Pistol.cs:81-103 | A miss does nothing. An enemy hit deals the damage and is never pushed. A non-enemy rigid body gets one impulse along the view, and anything else gets nothing. |
| Hitscan.ShotPushes | Assets/Scripts/Shotgun.cs:110-142 | A shot gives one impulse per ray that hits a non-enemy rigid body, and no ray produces more than one effect. |
| Hitscan.ShotOnTarget | Assets/Scripts/Shotgun.cs:110-142 | Per target, an enemy takes the damage once for every ray that hits it. A non-enemy rigid body is pushed once for every ray that hits it, so a body several rays hit is pushed several times. |
| Hitscan.ShotAmounts | Assets/Scripts/Shotgun.cs:128-140 | Every impulse of a shot is the view direction times the hit force, and every damage effect carries the weapon's damage. |
| Hitscan.DamageBound | Assets/Scripts/Shotgun.cs:110-142 | A shot's total damage is the damage per ray times the enemy-hitting rays, and at most the number of rays times the damage. |
| Hitscan.DeliverSubtracts | Assets/Scripts/Shotgun.cs:136-140 | Each tracked enemy loses exactly the damage addressed to it, and nothing else about it changes. |
| Hitscan.AllRaysOnOne | Assets/Scripts/Shotgun.cs:107-142 | When every ray hits the same enemy, it receives the full damage of every ray. |
| Weapon.CountDown | Assets/Scripts/Pistol.cs:52-54 | The cooldown decreases by dt only while positive and never increases for non-negative dt. Ammo and the reload flag are untouched. |
| Weapon.Reload | Assets/Scripts/Pistol.cs:107-114 | The reload starts; the rounds and the cooldown are unchanged until the animation event completes it. |
| Weapon.Reloaded | Assets/Scripts/Pistol.cs:118-123 | Whatever the magazine held, it is full and usable again. |
| Weapon.OnEnable | Assets/Scripts/Pistol.cs:41-46 | Switching to the pistol abandons a reload without refilling. |
| Weapon.Decide | Assets/Scripts/Pistol.cs:56-71 | It fires exactly when the fire guard holds, spending one round and restarting the cooldown. Otherwise it reloads exactly when the reload guard holds. Fire and reload never happen together, and the ammunition bounds are kept. |
| Weapon.ReloadRoundTrip | Assets/Scripts/Pistol.cs:107-123 | Starting and finishing a reload gives a full, usable magazine whatever the state was before, and finishing twice is finishing once. |
| Weapon.EmptyClickReloads | Assets/Scripts/Pistol.cs:70-71 | A click on an empty weapon that is not reloading starts a reload instead of firing. |
| Weapon.ReloadingNeverFires | Assets/Scripts/Pistol.cs:57 | While reloading nothing fires and no round is spent. |
| Pistol.Start | Assets/Scripts/Pistol.cs:31-38 | A full 15-round magazine, not reloading. |
| Pistol.Shoot | Assets/Scripts/Pistol.cs:74-104 | One ray: damage 10 for an enemy, a push for another rigid body, nothing otherwise. |
| Pistol.Update | Assets/Scripts/Pistol.cs:48-72 | The cooldown counts down first. It then fires exactly when the counted-down weapon can fire, spending a round, restarting the cooldown at 0.15 and casting the ray. Otherwise the cooldown is the counted-down one, there are no effects, and a reload may start. The magazine stays within [0, 15]. |
| Pistol.SwitchBackFires | Assets/Scripts/Pistol.cs:41-67 | After switching to the pistol, a click with rounds left and the cooldown run out fires, even if a reload was under way. |
| Pistol.ShotsSpendRounds | Assets/Scripts/Pistol.cs:57-71 | Over any run of frames the shots fired never exceed the rounds loaded, and the magazine ends exactly that many rounds lighter. |
| Pistol.EmptyAfterFullMagazine | Assets/Scripts/Pistol.cs:57-71 | After a full magazine's worth of shots the pistol is empty, and the next click starts a reload instead of firing. |
| Pistol.EnemiesTakeDamageNotImpulse | Assets/Scripts/Pistol.cs:89-102 | A shot on an enemy only damages it; a shot on anything else only pushes. |
| Shotgun.Start | Assets/Scripts/Shotgun.cs:36-45 | A full 2-round magazine, not reloading. |
| Shotgun.LaunchPlayer | Assets/Scripts/Shotgun.cs:76-96 | A grounded player is untouched. An airborne player is stopped and gets exactly one impulse of 15 opposite the view, and the air cap becomes 15. A launch changes nothing but the velocity, the move direction, the impulse log and the air cap. |
| Shotgun.Rays | Assets/Scripts/Shotgun.cs:107-120 | Exactly six rays, the i-th with the engine's outcome for its spread direction. |
| Shotgun.Shoot | Assets/Scripts/Shotgun.cs:98-143 | The damage is 10 per enemy-hitting ray and at most 60. Per target, each enemy takes 10 for every ray that hits it, and each other rigid body is pushed once for every ray that hits it. Every push carries the view direction times 50 and every damage effect carries 10. |
| Shotgun.Update | Assets/Scripts/Shotgun.cs:48-74 | It fires exactly when the weapon can fire before the count-down. A shot spends a round, leaves the cooldown at 0.25 - dt, launches the player and casts the rays. Otherwise the player is untouched, there are no effects, and a reload may start. The magazine stays within [0, 2]. |
| Shotgun.GroundedNeverLaunched | Assets/Scripts/Shotgun.cs:78-79 | A grounded player is never changed by a shotgun frame. |
| Shotgun.LaunchKeepsValid | Assets/Scripts/Shotgun.cs:76-96 | The launch keeps the player controller's invariant. |
| Shotgun.UpdateNeverEndsReload | Assets/Scripts/Shotgun.cs:48-74 | While reloading, no shotgun frame fires, spends a round or ends the reload. |
| Shotgun.StuckWhileReloading | Assets/Scripts/Shotgun.cs:48-74 | With no OnEnable, a reload that never completes keeps the shotgun from firing over any run of frames. |
| Shotgun.ShotsSpendRounds | Assets/Scripts/Shotgun.cs:58-74 | Over any run of frames the shots fired never exceed the rounds loaded, and the magazine ends exactly that many rounds lighter. |
| Shotgun.PointBlankKill | Assets/Scripts/Shotgun.cs:107-140 | Six rays on one enemy at 50 health deal 60 and leave -10. Its next health check destroys it and credits one kill. |
| WeaponController.GetInputs | Assets/Scripts/WeaponController.cs:36-47 | Keys 1, 2, 3 and H select Rifle, Pistol, Shotgun and Holster, in that priority. With no key the selection stays. |
| WeaponController.StateController | Assets/Scripts/WeaponController.cs:49-79 | A weapon is active exactly when it is the selection, so at most one is. The ammo text shows exactly when a weapon is out, whatever was active before. |
| WeaponController.Update | Assets/Scripts/WeaponController.cs:30-34 | The keys are read before the selection is applied. The active weapon is the new selection and can be read back from the loadout; with no key pressed it is the weapon selected before. |
| WeaponController.StateControllerIdempotent | Assets/Scripts/WeaponController.cs:49-79 | Applying a selection twice is applying it once, and the result does not depend on the previous loadout. |
| WeaponController.LoadoutDeterminesSelection | Assets/Scripts/WeaponController.cs:49-79 | The selection can be read back from the loadout it produces. |
| WeaponController.GetInputsIdempotent | Assets/Scripts/WeaponController.cs:36-47 | Reading the same keys again selects nothing new. |
| WeaponController.SameKeysTwice | Assets/Scripts/WeaponController.cs:30-79 | Pressing the same keys on two frames in a row gives the same selection and loadout as pressing them once. |

## Findings

| source | as written | input that shows it | evidently intended | confidence | as-written member | corrected member |
|---|---|---|---|---|---|---|
| Assets/Scripts/PlayerController.cs:126-127 | The frame update refills the jump buffer from the ground flag of the last physics tick. After a ground jump tick that flag still says grounded, so the buffer the jump just emptied (lines 242-243, "to stop double jumps") is refilled to 0.2. | On the ground: Space, a grounded jump tick, a frame, an airborne tick, then Space within 0.2 s of take-off and another airborne tick. A second jump fires in the air. | A jump is followed by no refill until a physics tick finds the ground again. `Player.FixedUpdateCorrected` clears the ground flag on the jump tick, and with it a ground jump is the only one in its buffer window. | high; not executed | PlayerProofs.GroundJumpJumpsTwice | PlayerProofs.GroundJumpOnce |

The rest of the model follows the code as written (`Player.FixedUpdate`). The corrected tick is used only by the schedules run with `corrected` set (`PlayerProofs.Play`).

## Left out

- Player.MovePlayer: in the air the velocity is left unchanged. The engine's `ClampMagnitude` to the air cap and the acceleration force below the cap need force integration, which the model does not do; only the recomputed move direction is modelled.
- Player.FixedUpdate: its own contract states only the paused case, the allowed state transitions and the bound of one impulse per tick. Through FixedUpdate, the lemmas state: the grapple start from Normal (`GrappleStartsFromNormal`), a Normal tick without a request (`NoGrappleWithoutRequest`), the jump tick (`BufferedJumpFiresOnce`, `JumpTickKicksOnce`), the throw (`ThrowPhase`), the pull (`PullPhase`, `GrappleJumpCancels`), the hold (`HoldAtEnd`, `RightClickNeverCancelsAtEnd`, `RestartThenJumpAtEnd`) and the invariant (`FixedUpdateKeepsValid`). Other combinations, such as a grapple request and a jump in one Normal tick, follow from the handler contracts but have no lemma of their own.
- Player.MovePlayer: the world move direction is an engine input. The model ties it to the move input only as far as `Player.MoveAgrees` states: a zero input gives a zero world move (`Player.NoInputNoGroundMove`). Its direction and unit length are not checked.
- Player.GrappleMovement: the distance to the grapple point is an engine input, and nothing ties it to the offset to the grapple point. The direction is a unit vector only when the two agree (`Player.DistanceAgrees`, used by `Player.GrappleDirectionIsUnit`). Convergence of a grapple to EndOfGrapple over many ticks needs physics integration and is not stated.
- Enemy.CheckHealth: after `Destroy` the engine stops running the enemy, so the model makes a second check a no-op.
- PauseMenu.PressPractice and PauseMenu.PressOpenArea: the scene load is returned as the scene name. The menu's visibility flag is left as it was, because the reload recreates the scene.
- The camera and body rotation (MoveCamera, LateUpdate) and the mouse input are not modelled; only the move direction they produce enters, as a tick input.
- The shotgun's random spread is not modelled. Each ray's outcome is an input function of the ray index.
- Sound, particles, impact `Instantiate`, cursor locking, UI text, the Animator "Reloading" bool (it always mirrors the reload flag) and `Application.Quit` (PressQuit) are not modelled.
- Floating-point rounding is not modelled: all quantities are exact reals. Unity's `normalized` small-magnitude threshold is not modelled either; a normalised direction is an input.
- `transform.localPosition` is treated as the world position (the player has no parent).
- Serialized field values are taken at their declared defaults.
- SoundManager, DoorController, the Checkpoint component (its position is an input) and the Rifle script are not part of this model.

=== FILE: basics.dfy ===
/** The conventional Some/None datatype, used for engine queries that may find nothing
    (a raycast that misses, a trigger that is not a checkpoint). */
module Wrappers {

  datatype Option<+T> = None | Some(value: T)
}

/** Three-component vectors over the reals, standing in for the engine's Vector3.
    Only the operations the controllers perform themselves are defined here;
    lengths and normalisation are engine queries and are passed in by callers. */
module Vectors {

  datatype Vec3 = Vec3(x: real, y: real, z: real)

  const Zero: Vec3 := Vec3(0.0, 0.0, 0.0)

  /** The world up direction (Vector3.up). */
  const Up: Vec3 := Vec3(0.0, 1.0, 0.0)

  function Scale(v: Vec3, k: real): (r: Vec3)
    ensures k == 1.0 ==> r == v
    ensures v == Zero || k == 0.0 ==> r == Zero
  {
    Vec3(v.x * k, v.y * k, v.z * k)
  }

  function Add(a: Vec3, b: Vec3): Vec3
  {
    Vec3(a.x + b.x, a.y + b.y, a.z + b.z)
  }

  function Sub(a: Vec3, b: Vec3): (r: Vec3)
    ensures Add(r, b) == a
  {
    Vec3(a.x - b.x, a.y - b.y, a.z - b.z)
  }

  /** The dot product; `Dot(v, v)` is the squared length. */
  function Dot(a: Vec3, b: Vec3): real
  {
    a.x * b.x + a.y * b.y + a.z * b.z
  }

  /** Scaling multiplies the squared length by the square of the factor. */
  lemma ScaleSquaredLength(v: Vec3, k: real)
    ensures Dot(Scale(v, k), Scale(v, k)) == (k * k) * Dot(v, v)
  {
    var w := Scale(v, k);
    assert w.x * w.x == (k * k) * (v.x * v.x);
    assert w.y * w.y == (k * k) * (v.y * v.y);
    assert w.z * w.z == (k * k) * (v.z * v.z);
  }

  function Neg(v: Vec3): (r: Vec3)
    ensures Add(v, r) == Zero
  {
    Vec3(-v.x, -v.y, -v.z)
  }
}

=== FILE: camera_fov.dfy ===
/** The camera rig: a current field of view that is smoothed every frame toward a
    target field of view. The grapple state machine is the only component that
    moves the target. */
module CameraFov {

  /** `fov` is what the camera shows; `target` is where it is heading. */
  datatype Camera = Camera(fov: real, target: real)

  /** Rate constant of the smoothing step (fovSpeed). */
  const FovSpeed: real := 4.0

  function Abs(x: real): (r: real)
    ensures r >= 0.0
    ensures r == x || r == -x
  {
    if x < 0.0 then -x else x
  }

  /** Distance still to cover before the camera reaches its target. */
  function Gap(c: Camera): real
  {
    Abs(c.target - c.fov)
  }

  /** `x` lies on the closed segment between `a` and `b`, in either orientation. */
  predicate Between(a: real, x: real, b: real)
  {
    (a <= x <= b) || (b <= x <= a)
  }

  /** Clamps an interpolation parameter into [0, 1], as Mathf.Lerp does with its `t`. */
  function Clamp01(t: real): (r: real)
    ensures 0.0 <= r <= 1.0
    ensures 0.0 <= t <= 1.0 ==> r == t
    ensures t <= 0.0 ==> r == 0.0
    ensures t >= 1.0 ==> r == 1.0
  {
    if t < 0.0 then 0.0 else if t > 1.0 then 1.0 else t
  }

  /** Scaling by a factor in [0, 1] keeps a quantity between zero and itself. */
  lemma ScaleByUnit(d: real, s: real)
    requires 0.0 <= s <= 1.0
    ensures d >= 0.0 ==> 0.0 <= d * s <= d
    ensures d <= 0.0 ==> d <= d * s <= 0.0
  {
    var u := 1.0 - s;
    assert d * s + d * u == d;
    if d >= 0.0 {
      assert d * s >= 0.0;
      assert d * u >= 0.0;
    } else {
      assert d * s <= 0.0;
      assert d * u <= 0.0;
    }
  }

  /** Mathf.Lerp with its documented clamp of `t`. The result never leaves the
      segment between the two end points. */
  function Lerp(a: real, b: real, t: real): (r: real)
    ensures Between(a, r, b)
    ensures b - r == (b - a) * (1.0 - Clamp01(t))
    ensures Clamp01(t) == 1.0 ==> r == b
    ensures Clamp01(t) == 0.0 ==> r == a
  {
    var s := Clamp01(t);
    var d := b - a;
    ScaleByUnit(d, s);
    assert d >= 0.0 || d <= 0.0;
    a + d * s
  }

  /** Awake: the camera starts at rest, with the target equal to the camera's own
      initial field of view. */
  function Awake(initialFov: real): (c: Camera)
    ensures Gap(c) == 0.0
    ensures c.fov == initialFov
  {
    Camera(initialFov, initialFov)
  }

  /** SetCameraFov: the only mutator other components use. It never snaps the
      current value, it only moves the target. */
  function SetCameraFov(c: Camera, target: real): (r: Camera)
    ensures r.fov == c.fov
    ensures r.target == target
  {
    c.(target := target)
  }

  /** One frame of smoothing with elapsed time `dt`. */
  function Update(c: Camera, dt: real): (r: Camera)
    ensures r.target == c.target
    ensures Between(c.fov, r.fov, c.target)
    ensures Gap(r) <= Gap(c)
    ensures Gap(r) == Gap(c) * (1.0 - Clamp01(dt * FovSpeed))
    ensures c.fov == c.target ==> r == c
    ensures dt * FovSpeed >= 1.0 ==> Gap(r) == 0.0
  {
    var k := 1.0 - Clamp01(dt * FovSpeed);
    ScaleByUnit(c.target - c.fov, k);
    c.(fov := Lerp(c.fov, c.target, dt * FovSpeed))
  }

  /** The camera after a run of frames with the given elapsed times, the target
      left alone throughout. */
  function Settle(c: Camera, dts: seq<real>): Camera
    decreases |dts|
  {
    if |dts| == 0 then c else Settle(Update(c, dts[0]), dts[1..])
  }

  /** However the frames are timed, the smoothed value stays between where it
      started and the target, heads toward the target without overshooting it,
      and the target itself never moves. */
  lemma {:induction false} SettleApproaches(c: Camera, dts: seq<real>)
    ensures Settle(c, dts).target == c.target
    ensures Between(c.fov, Settle(c, dts).fov, c.target)
    ensures Gap(Settle(c, dts)) <= Gap(c)
    decreases |dts|
  {
    if |dts| > 0 {
      var c1 := Update(c, dts[0]);
      SettleApproaches(c1, dts[1..]);
    }
  }

  /** A camera already at its target stays there over any run of frames (and by
      Update, a single frame of at least 1/FovSpeed seconds brings it there). */
  lemma {:induction false} SettleStaysAtTarget(c: Camera, dts: seq<real>)
    requires c.fov == c.target
    ensures Settle(c, dts) == c
    decreases |dts|
  {
    if |dts| > 0 {
      SettleStaysAtTarget(Update(c, dts[0]), dts[1..]);
    }
  }

  /** A camera started at some field of view and then retargeted eases toward the
      new target over any run of frames: the target persists, the field of view
      stays between the start and the target, and the gap never grows. */
  lemma RetargetSettles(initialFov: real, target: real, dts: seq<real>)
    ensures var c := Settle(SetCameraFov(Awake(initialFov), target), dts);
      && c.target == target
      && Between(initialFov, c.fov, target)
      && Gap(c) <= Abs(target - initialFov)
  {
    var c0 := SetCameraFov(Awake(initialFov), target);
    SettleApproaches(c0, dts);
    assert Gap(c0) == Abs(target - initialFov);
  }
}

=== FILE: enemy.dfy ===
/** The enemy's health: damage is subtracted with no floor, and a health check at or
    below zero credits the player with a kill and destroys the enemy. */
module Enemy {

  import Player

  /** `health` is the configured capacity, `currentHealth` what is left of it, and
      `destroyed` records that Destroy has been called (after which the engine no
      longer runs the enemy's Update). */
  datatype Enemy = Enemy(health: real, currentHealth: real, destroyed: bool)

  /** The configured capacity (serialised default). */
  const DefaultHealth: real := 50.0

  /** Start: full health. */
  function Start(health: real): (e: Enemy)
    ensures e.currentHealth == e.health == health
    ensures !e.destroyed
  {
    Enemy(health, health, false)
  }

  /** TakeDamage: the entry point weapons call. */
  function TakeDamage(e: Enemy, damage: real): (r: Enemy)
    ensures r.currentHealth == e.currentHealth - damage
    ensures r.health == e.health && r.destroyed == e.destroyed
    ensures damage > 0.0 ==> r.currentHealth < e.currentHealth
  {
    e.(currentHealth := e.currentHealth - damage)
  }

  /** CheckHealth, run every frame while the enemy exists: at or below zero health
      the player's kill counter goes up by one and the enemy is destroyed; above
      zero, or once destroyed, nothing happens. Returns the enemy and the player. */
  function CheckHealth(e: Enemy, player: Player.PlayerState): (r: (Enemy, Player.PlayerState))
    ensures !e.destroyed && e.currentHealth <= 0.0 ==>
      && r.0 == e.(destroyed := true)
      && r.1 == Player.SetEnemiesKilled(player, 1)
    ensures e.destroyed || e.currentHealth > 0.0 ==> r == (e, player)
    ensures r.1.enemiesKilled - player.enemiesKilled == (if r.0.destroyed && !e.destroyed then 1 else 0)
  {
    if !e.destroyed && e.currentHealth <= 0.0 then
      (e.(destroyed := true), Player.SetEnemiesKilled(player, 1))
    else
      (e, player)
  }

  /** The sum of a sequence of damage amounts. */
  function Sum(ds: seq<real>): real
  {
    if |ds| == 0 then 0.0 else ds[0] + Sum(ds[1..])
  }

  /** Several hits, in the order given. */
  function TakeAll(e: Enemy, ds: seq<real>): Enemy
    decreases |ds|
  {
    if |ds| == 0 then e else TakeAll(TakeDamage(e, ds[0]), ds[1..])
  }

  /** A run of hits lowers health by exactly their total, never clamping at zero,
      and touches nothing else. */
  lemma {:induction false} TakeAllSubtractsSum(e: Enemy, ds: seq<real>)
    ensures TakeAll(e, ds).currentHealth == e.currentHealth - Sum(ds)
    ensures TakeAll(e, ds).health == e.health && TakeAll(e, ds).destroyed == e.destroyed
    decreases |ds|
  {
    if |ds| > 0 {
      TakeAllSubtractsSum(TakeDamage(e, ds[0]), ds[1..]);
    }
  }

  lemma {:induction false} SumConcat(a: seq<real>, b: seq<real>)
    ensures Sum(a + b) == Sum(a) + Sum(b)
    decreases |a|
  {
    if |a| > 0 {
      assert (a + b)[1..] == a[1..] + b;
      SumConcat(a[1..], b);
    } else {
      assert a + b == b;
    }
  }

  /** Taking one amount out of the middle of a sequence. */
  lemma SumRemove(es: seq<real>, i: nat)
    requires i < |es|
    ensures Sum(es) == es[i] + Sum(es[..i] + es[i + 1..])
  {
    assert es == (es[..i] + [es[i]]) + es[i + 1..];
    SumConcat(es[..i] + [es[i]], es[i + 1..]);
    SumConcat(es[..i], [es[i]]);
    SumConcat(es[..i], es[i + 1..]);
    assert Sum([es[i]]) == es[i];
  }

  lemma MultisetRemove(es: seq<real>, i: nat)
    requires i < |es|
    ensures multiset(es[..i] + es[i + 1..]) == multiset(es) - multiset{es[i]}
  {
    assert es == es[..i] + [es[i]] + es[i + 1..];
  }

  /** The total does not depend on the order of the amounts. */
  lemma {:induction false} SumPermutation(ds: seq<real>, es: seq<real>)
    requires multiset(ds) == multiset(es)
    ensures Sum(ds) == Sum(es)
    decreases |ds|
  {
    if |ds| == 0 {
      assert |es| == |multiset(es)| == 0;
    } else {
      var x := ds[0];
      assert x in multiset(es);
      var i :| 0 <= i < |es| && es[i] == x;
      MultisetRemove(es, i);
      MultisetRemove(ds, 0);
      assert ds[..0] + ds[1..] == ds[1..];
      SumPermutation(ds[1..], es[..i] + es[i + 1..]);
      SumRemove(es, i);
    }
  }

  /** The same hits delivered in any order leave the enemy in the same state. */
  lemma HitsCommute(e: Enemy, ds: seq<real>, es: seq<real>)
    requires multiset(ds) == multiset(es)
    ensures TakeAll(e, ds) == TakeAll(e, es)
  {
    TakeAllSubtractsSum(e, ds);
    TakeAllSubtractsSum(e, es);
    SumPermutation(ds, es);
  }

  /** A destroyed enemy is credited once: a second health check changes nothing. */
  lemma KilledOnce(e: Enemy, player: Player.PlayerState)
    requires e.currentHealth <= 0.0 && !e.destroyed
    ensures var r := CheckHealth(e, player);
      && r.0.destroyed && r.1.enemiesKilled == player.enemiesKilled + 1
      && CheckHealth(r.0, r.1) == r
  {
  }

  /** Default health 50 and the pistol's damage of 10: four hits leave it alive, the
      fifth brings it to exactly zero, and the next check destroys it and credits
      one kill. */
  lemma FiveHitsKill(player: Player.PlayerState)
    ensures var e4 := TakeAll(Start(DefaultHealth), [10.0, 10.0, 10.0, 10.0]);
      e4.currentHealth == 10.0 && CheckHealth(e4, player) == (e4, player)
    ensures var e5 := TakeAll(Start(DefaultHealth), [10.0, 10.0, 10.0, 10.0, 10.0]);
      && e5.currentHealth == 0.0
      && CheckHealth(e5, player).0.destroyed
      && CheckHealth(e5, player).1.enemiesKilled == player.enemiesKilled + 1
  {
    TakeAllSubtractsSum(Start(DefaultHealth), [10.0, 10.0, 10.0, 10.0]);
    TakeAllSubtractsSum(Start(DefaultHealth), [10.0, 10.0, 10.0, 10.0, 10.0]);
  }

  /** A freshly started enemy with positive health survives its health check
      untouched and credits no kill. */
  lemma FreshEnemySurvives(h: real, player: Player.PlayerState)
    requires h > 0.0
    ensures CheckHealth(Start(h), player) == (Start(h), player)
  {
  }
}

=== FILE: hitscan.dfy ===
/** Per-ray hit dispatch shared by both hitscan weapons: what a single ray's outcome
    does to the world (a knockback impulse for a non-enemy rigid body, damage for an
    enemy, nothing for a miss), and how the outcomes of several rays add up. */
module Hitscan {

  import opened Vectors
  import Enemy

  /** What one raycast returned. `target` identifies the object hit; `isEnemy` is its
      "Enemy" tag and `hasRigidbody` whether it carries a rigid body. */
  datatype RayHit = Miss | Hit(target: nat, isEnemy: bool, hasRigidbody: bool)

  /** An effect a shot has on another object (impact particles are not recorded). */
  datatype Effect =
    | Push(target: nat, impulse: Vec3)    // AddForce(forward * hitForce, Impulse)
    | Damage(target: nat, amount: real)   // Enemy.TakeDamage(damage)

  /** The effect of one ray fired along `forward`. */
  function RayEffects(hit: RayHit, forward: Vec3, hitForce: real, damage: real): (r: seq<Effect>)
    ensures hit.Miss? ==> r == []
    ensures |r| <= 1
    ensures |r| == 1 <==> hit.Hit? && (hit.isEnemy || hit.hasRigidbody)
    ensures |r| == 1 ==> r[0].target == hit.target
    ensures |r| == 1 ==> (r[0].Damage? <==> hit.isEnemy)
    ensures |r| == 1 && r[0].Damage? ==> r[0].amount == damage
    ensures |r| == 1 && r[0].Push? ==> r[0].impulse == Scale(forward, hitForce) && hit.hasRigidbody
  {
    match hit
    case Miss => []
    case Hit(target, isEnemy, hasRigidbody) =>
      var push := if hasRigidbody && !isEnemy then [Push(target, Scale(forward, hitForce))] else [];
      var hurt := if isEnemy then [Damage(target, damage)] else [];
      push + hurt
  }

  /** The effects of several rays, in the order they were cast. */
  function ShootRays(hits: seq<RayHit>, forward: Vec3, hitForce: real, damage: real): seq<Effect>
  {
    if |hits| == 0 then []
    else RayEffects(hits[0], forward, hitForce, damage) + ShootRays(hits[1..], forward, hitForce, damage)
  }

  /** Rays that hit an enemy. */
  function EnemyHits(hits: seq<RayHit>): nat
  {
    if |hits| == 0 then 0
    else (if hits[0].Hit? && hits[0].isEnemy then 1 else 0) + EnemyHits(hits[1..])
  }

  /** Rays that hit a rigid body that is not an enemy. */
  function BodyHits(hits: seq<RayHit>): nat
  {
    if |hits| == 0 then 0
    else (if hits[0].Hit? && !hits[0].isEnemy && hits[0].hasRigidbody then 1 else 0) + BodyHits(hits[1..])
  }

  /** Total damage carried by a list of effects. */
  function TotalDamage(effects: seq<Effect>): real
  {
    if |effects| == 0 then 0.0
    else (if effects[0].Damage? then effects[0].amount else 0.0) + TotalDamage(effects[1..])
  }

  /** Knockback impulses in a list of effects. */
  function Pushes(effects: seq<Effect>): nat
  {
    if |effects| == 0 then 0
    else (if effects[0].Push? then 1 else 0) + Pushes(effects[1..])
  }

  lemma {:induction false} TotalDamageConcat(a: seq<Effect>, b: seq<Effect>)
    ensures TotalDamage(a + b) == TotalDamage(a) + TotalDamage(b)
    ensures Pushes(a + b) == Pushes(a) + Pushes(b)
    decreases |a|
  {
    if |a| == 0 {
      assert a + b == b;
    } else {
      assert (a + b)[1..] == a[1..] + b;
      TotalDamageConcat(a[1..], b);
    }
  }

  /** One ray deals `damage` if it hits an enemy and nothing otherwise, and pushes
      once if it hits a non-enemy rigid body. */
  lemma RayTotals(hit: RayHit, forward: Vec3, hitForce: real, damage: real)
    ensures TotalDamage(RayEffects(hit, forward, hitForce, damage)) == (if hit.Hit? && hit.isEnemy then damage else 0.0)
    ensures Pushes(RayEffects(hit, forward, hitForce, damage)) == (if hit.Hit? && !hit.isEnemy && hit.hasRigidbody then 1 else 0)
  {
    var first := RayEffects(hit, forward, hitForce, damage);
    if |first| == 1 {
      assert first[1..] == [];
    }
  }

  /** Every ray that hits a non-enemy rigid body gives exactly one impulse, and no
      ray gives more than one effect. */
  lemma {:induction false} ShotPushes(hits: seq<RayHit>, forward: Vec3, hitForce: real, damage: real)
    ensures Pushes(ShootRays(hits, forward, hitForce, damage)) == BodyHits(hits)
    ensures EnemyHits(hits) + BodyHits(hits) <= |hits|
    ensures |ShootRays(hits, forward, hitForce, damage)| <= |hits|
    decreases |hits|
  {
    if |hits| > 0 {
      var first := RayEffects(hits[0], forward, hitForce, damage);
      ShotPushes(hits[1..], forward, hitForce, damage);
      TotalDamageConcat(first, ShootRays(hits[1..], forward, hitForce, damage));
      RayTotals(hits[0], forward, hitForce, damage);
    }
  }

  /** `n` rays' worth of `d` damage, as repeated addition. */
  function Repeat(n: nat, d: real): real
  {
    if n == 0 then 0.0 else d + Repeat(n - 1, d)
  }

  lemma {:induction false} RepeatIsProduct(n: nat, d: real)
    ensures Repeat(n, d) == n as real * d
  {
    if n > 0 {
      RepeatIsProduct(n - 1, d);
      assert n as real * d == (n - 1) as real * d + d;
    }
  }

  lemma {:induction false} RepeatMonotone(k: nat, n: nat, d: real)
    requires k <= n && d >= 0.0
    ensures Repeat(k, d) <= Repeat(n, d)
    decreases n
  {
    if k < n {
      RepeatMonotone(k, n - 1, d);
    }
  }

  /** Every enemy-hitting ray deals `damage` exactly once. */
  lemma {:induction false} ShotDamage(hits: seq<RayHit>, forward: Vec3, hitForce: real, damage: real)
    ensures TotalDamage(ShootRays(hits, forward, hitForce, damage)) == Repeat(EnemyHits(hits), damage)
    decreases |hits|
  {
    if |hits| > 0 {
      var first := RayEffects(hits[0], forward, hitForce, damage);
      var rest := ShootRays(hits[1..], forward, hitForce, damage);
      ShotDamage(hits[1..], forward, hitForce, damage);
      TotalDamageConcat(first, rest);
      RayTotals(hits[0], forward, hitForce, damage);
    }
  }

  /** So the damage of a shot is the damage per ray times the enemy-hitting rays, and
      at most the number of rays times the damage per ray. */
  lemma DamageBound(hits: seq<RayHit>, forward: Vec3, hitForce: real, damage: real)
    requires damage >= 0.0
    ensures TotalDamage(ShootRays(hits, forward, hitForce, damage)) == EnemyHits(hits) as real * damage
    ensures TotalDamage(ShootRays(hits, forward, hitForce, damage)) <= |hits| as real * damage
  {
    ShotDamage(hits, forward, hitForce, damage);
    ShotPushes(hits, forward, hitForce, damage);
    RepeatMonotone(EnemyHits(hits), |hits|, damage);
    RepeatIsProduct(EnemyHits(hits), damage);
    RepeatIsProduct(|hits|, damage);
  }

  /** Delivers the damage effects of a shot to the enemies they name; knockback and
      effects on objects that are not tracked enemies change nothing here. */
  function Deliver(enemies: map<nat, Enemy.Enemy>, effects: seq<Effect>): (r: map<nat, Enemy.Enemy>)
    ensures r.Keys == enemies.Keys
    decreases |effects|
  {
    if |effects| == 0 then enemies
    else
      var e := effects[0];
      var next :=
        if e.Damage? && e.target in enemies
        then enemies[e.target := Enemy.TakeDamage(enemies[e.target], e.amount)]
        else enemies;
      Deliver(next, effects[1..])
  }

  /** Damage the effects deal to one target. */
  function DamageTo(t: nat, effects: seq<Effect>): real
  {
    if |effects| == 0 then 0.0
    else (if effects[0].Damage? && effects[0].target == t then effects[0].amount else 0.0) + DamageTo(t, effects[1..])
  }

  /** Each tracked enemy loses exactly the damage addressed to it, with no floor,
      and nothing else about it changes. */
  lemma {:induction false} DeliverSubtracts(enemies: map<nat, Enemy.Enemy>, effects: seq<Effect>, t: nat)
    requires t in enemies
    ensures Deliver(enemies, effects)[t] == Enemy.TakeDamage(enemies[t], DamageTo(t, effects))
    decreases |effects|
  {
    if |effects| > 0 {
      var e := effects[0];
      var next :=
        if e.Damage? && e.target in enemies
        then enemies[e.target := Enemy.TakeDamage(enemies[e.target], e.amount)]
        else enemies;
      DeliverSubtracts(next, effects[1..], t);
    }
  }

  lemma {:induction false} DamageToConcat(t: nat, a: seq<Effect>, b: seq<Effect>)
    ensures DamageTo(t, a + b) == DamageTo(t, a) + DamageTo(t, b)
    decreases |a|
  {
    if |a| == 0 {
      assert a + b == b;
    } else {
      assert (a + b)[1..] == a[1..] + b;
      DamageToConcat(t, a[1..], b);
    }
  }

  /** Every ray of a shot on the same enemy: it takes the full damage of each. */
  lemma {:induction false} AllRaysOnOne(hits: seq<RayHit>, t: nat, forward: Vec3, hitForce: real, damage: real)
    requires forall i :: 0 <= i < |hits| ==> hits[i].Hit? && hits[i].isEnemy && hits[i].target == t
    ensures DamageTo(t, ShootRays(hits, forward, hitForce, damage)) == Repeat(|hits|, damage)
    decreases |hits|
  {
    if |hits| > 0 {
      var first := RayEffects(hits[0], forward, hitForce, damage);
      AllRaysOnOne(hits[1..], t, forward, hitForce, damage);
      DamageToConcat(t, first, ShootRays(hits[1..], forward, hitForce, damage));
      assert first == [Damage(t, damage)];
    }
  }

  /** Knockback impulses addressed to one target. */
  function PushesTo(t: nat, effects: seq<Effect>): nat
  {
    if |effects| == 0 then 0
    else (if effects[0].Push? && effects[0].target == t then 1 else 0) + PushesTo(t, effects[1..])
  }

  /** Rays that hit the enemy `t`. */
  function EnemyHitsOn(t: nat, hits: seq<RayHit>): nat
  {
    if |hits| == 0 then 0
    else (if hits[0].Hit? && hits[0].isEnemy && hits[0].target == t then 1 else 0) + EnemyHitsOn(t, hits[1..])
  }

  /** Rays that hit `t` as a rigid body that is not an enemy. */
  function BodyHitsOn(t: nat, hits: seq<RayHit>): nat
  {
    if |hits| == 0 then 0
    else (if hits[0] == Hit(t, false, true) then 1 else 0) + BodyHitsOn(t, hits[1..])
  }

  lemma {:induction false} PushesToConcat(t: nat, a: seq<Effect>, b: seq<Effect>)
    ensures PushesTo(t, a + b) == PushesTo(t, a) + PushesTo(t, b)
    decreases |a|
  {
    if |a| == 0 {
      assert a + b == b;
    } else {
      assert (a + b)[1..] == a[1..] + b;
      PushesToConcat(t, a[1..], b);
    }
  }

  /** What one ray does to one target. */
  lemma RayOnTarget(hit: RayHit, t: nat, forward: Vec3, hitForce: real, damage: real)
    ensures DamageTo(t, RayEffects(hit, forward, hitForce, damage)) == (if hit.Hit? && hit.isEnemy && hit.target == t then damage else 0.0)
    ensures PushesTo(t, RayEffects(hit, forward, hitForce, damage)) == (if hit == Hit(t, false, true) then 1 else 0)
  {
    var first := RayEffects(hit, forward, hitForce, damage);
    if |first| == 1 {
      assert first[1..] == [];
    }
  }

  /** Per target: each enemy takes `damage` once for every ray that hits it, and each
      non-enemy rigid body is pushed once for every ray that hits it, so a body
      several rays hit is pushed several times. */
  lemma {:induction false} ShotOnTarget(hits: seq<RayHit>, t: nat, forward: Vec3, hitForce: real, damage: real)
    ensures DamageTo(t, ShootRays(hits, forward, hitForce, damage)) == Repeat(EnemyHitsOn(t, hits), damage)
    ensures PushesTo(t, ShootRays(hits, forward, hitForce, damage)) == BodyHitsOn(t, hits)
    decreases |hits|
  {
    if |hits| > 0 {
      var first := RayEffects(hits[0], forward, hitForce, damage);
      var rest := ShootRays(hits[1..], forward, hitForce, damage);
      ShotOnTarget(hits[1..], t, forward, hitForce, damage);
      DamageToConcat(t, first, rest);
      PushesToConcat(t, first, rest);
      RayOnTarget(hits[0], t, forward, hitForce, damage);
    }
  }

  /** The per-target counts of a shot for every target at once, with the damage as a
      product. */
  lemma ShotTargets(hits: seq<RayHit>, forward: Vec3, hitForce: real, damage: real)
    ensures forall t: nat :: DamageTo(t, ShootRays(hits, forward, hitForce, damage)) == EnemyHitsOn(t, hits) as real * damage
    ensures forall t: nat :: PushesTo(t, ShootRays(hits, forward, hitForce, damage)) == BodyHitsOn(t, hits)
  {
    forall t: nat
      ensures DamageTo(t, ShootRays(hits, forward, hitForce, damage)) == EnemyHitsOn(t, hits) as real * damage
      ensures PushesTo(t, ShootRays(hits, forward, hitForce, damage)) == BodyHitsOn(t, hits)
    {
      ShotOnTargetProduct(hits, t, forward, hitForce, damage);
    }
  }

  lemma ShotOnTargetProduct(hits: seq<RayHit>, t: nat, forward: Vec3, hitForce: real, damage: real)
    ensures DamageTo(t, ShootRays(hits, forward, hitForce, damage)) == EnemyHitsOn(t, hits) as real * damage
    ensures PushesTo(t, ShootRays(hits, forward, hitForce, damage)) == BodyHitsOn(t, hits)
  {
    ShotOnTarget(hits, t, forward, hitForce, damage);
    RepeatIsProduct(EnemyHitsOn(t, hits), damage);
  }

  /** Every impulse of a shot is the view direction scaled by the hit force, and every
      damage effect carries the weapon's damage. */
  lemma {:induction false} ShotAmounts(hits: seq<RayHit>, forward: Vec3, hitForce: real, damage: real)
    ensures forall i :: 0 <= i < |ShootRays(hits, forward, hitForce, damage)| ==>
      var e := ShootRays(hits, forward, hitForce, damage)[i];
      (e.Push? ==> e.impulse == Scale(forward, hitForce)) && (e.Damage? ==> e.amount == damage)
    decreases |hits|
  {
    if |hits| > 0 {
      ShotAmounts(hits[1..], forward, hitForce, damage);
    }
  }
}

=== FILE: pause_menu.dfy ===
/** The pause menu: a two-state toggle of the `paused` flag, the menu UI's visibility
    and the global time scale. Every per-tick method of the player controller reads
    `paused` and does nothing while it is set. */
module PauseMenu {

  /** `uiActive` is the menu object's activeSelf; `timeScale` is Time.timeScale. */
  datatype Menu = Menu(paused: bool, uiActive: bool, timeScale: real)

  const PracticeScene: string := "Practice Course"
  const OpenAreaScene: string := "Open Area"

  /** The three views of "the game is paused" agree: the flag, the visible menu and a
      stopped clock. */
  predicate Consistent(m: Menu)
  {
    && (m.paused <==> m.uiActive)
    && (m.paused <==> m.timeScale == 0.0)
    && (m.timeScale == 0.0 || m.timeScale == 1.0)
  }

  /** Field initialisation (`paused = false`) followed by Start: the clock runs and
      the menu is hidden. */
  function Start(): (m: Menu)
    ensures Consistent(m)
    ensures !m.paused && !m.uiActive && m.timeScale == 1.0
  {
    Menu(false, false, 1.0)
  }

  /** ToggleMenu: a visible menu is closed and the clock resumed; a hidden menu is
      opened and the clock stopped. Whatever state it is given, the result is
      consistent and the menu's visibility is flipped. */
  function ToggleMenu(m: Menu): (r: Menu)
    ensures Consistent(r)
    ensures r.uiActive == !m.uiActive
    ensures m.uiActive ==> !r.paused && r.timeScale == 1.0
    ensures !m.uiActive ==> r.paused && r.timeScale == 0.0
  {
    if m.uiActive then
      Menu(paused := false, uiActive := false, timeScale := 1.0)
    else
      Menu(paused := true, uiActive := true, timeScale := 0.0)
  }

  /** Update: the escape key toggles the menu; any other frame leaves it alone. */
  function Update(m: Menu, escapeDown: bool): (r: Menu)
    ensures Consistent(m) ==> Consistent(r)
    ensures escapeDown <==> r.uiActive != m.uiActive
  {
    if escapeDown then ToggleMenu(m) else m
  }

  /** Toggling twice from a consistent state is the identity. */
  lemma ToggleInvolution(m: Menu)
    requires Consistent(m)
    ensures ToggleMenu(ToggleMenu(m)) == m
  {
    if m.uiActive {
      assert m.paused && m.timeScale == 0.0;
    } else {
      assert !m.paused && m.timeScale == 1.0;
    }
  }

  /** A consistent state is reached from Start by some number of escape presses, and
      the parity of that number decides whether the game is paused. */
  function ToggleTimes(m: Menu, n: nat): Menu
  {
    if n == 0 then m else ToggleMenu(ToggleTimes(m, n - 1))
  }

  lemma {:induction false} ToggleParity(n: nat)
    ensures Consistent(ToggleTimes(Start(), n))
    ensures ToggleTimes(Start(), n).paused <==> n % 2 == 1
  {
    if n > 0 {
      ToggleParity(n - 1);
    }
  }

  /** PressPractice: the clock is resumed, the flag cleared and the practice course
      requested. The menu object is left as it is; the scene load replaces it. */
  function PressPractice(m: Menu): (r: (Menu, string))
    ensures !r.0.paused && r.0.timeScale == 1.0
    ensures r.0.uiActive == m.uiActive
    ensures r.1 == PracticeScene
    ensures Consistent(r.0) <==> !m.uiActive
  {
    (m.(paused := false, timeScale := 1.0), PracticeScene)
  }

  /** PressOpenArea: as PressPractice, requesting the open area instead. */
  function PressOpenArea(m: Menu): (r: (Menu, string))
    ensures !r.0.paused && r.0.timeScale == 1.0
    ensures r.0.uiActive == m.uiActive
    ensures r.1 == OpenAreaScene
    ensures Consistent(r.0) <==> !m.uiActive
    ensures r.1 != PressPractice(m).1
  {
    (m.(paused := false, timeScale := 1.0), OpenAreaScene)
  }

  /** The buttons are on the menu, so they are pressed while it is open. Doing so
      leaves a visible menu over a running game, an inconsistent state that lasts
      only until the requested scene has loaded and run Start again. */
  lemma ButtonsLeaveMenuVisible(m: Menu)
    requires Consistent(m) && m.uiActive
    ensures !Consistent(PressPractice(m).0) && PressPractice(m).0.uiActive
    ensures !Consistent(PressOpenArea(m).0) && PressOpenArea(m).0.uiActive
    ensures !PressPractice(m).0.paused && !PressOpenArea(m).0.paused
  {
  }
}

=== FILE: pistol.dfy ===
/** The semi-automatic pistol: one ray per shot, a fifteen-round magazine, and a
    cooldown that counts down before the fire/reload decision of each frame. */
module Pistol {

  import opened Vectors
  import opened Weapon
  import Hitscan

  const AmmoCount: int := 15
  const Damage: real := 10.0
  /** Length of the pistol's ray; it bounds which objects the engine reports hit. */
  const Range: real := 50.0
  const HitForce: real := 0.0
  const FireRate: real := 0.15

  /** What one frame of the pistol produced. */
  datatype FrameResult = FrameResult(gun: Gun, fired: bool, effects: seq<Hitscan.Effect>)

  /** Start. */
  function Start(): (g: Gun)
    ensures g.ammo == AmmoCount && !g.reloading && InBounds(g, AmmoCount)
  {
    Load(AmmoCount)
  }

  /** Shoot: the effect of the single ray cast along the camera's forward vector. */
  function Shoot(hit: Hitscan.RayHit, forward: Vec3): (effects: seq<Hitscan.Effect>)
    ensures |effects| <= 1
    ensures hit.Miss? ==> effects == []
    ensures hit.Hit? && hit.isEnemy ==> effects == [Hitscan.Damage(hit.target, Damage)]
    ensures hit.Hit? && !hit.isEnemy && hit.hasRigidbody ==> effects == [Hitscan.Push(hit.target, Scale(forward, HitForce))]
    ensures hit.Hit? && !hit.isEnemy && !hit.hasRigidbody ==> effects == []
  {
    Hitscan.RayEffects(hit, forward, HitForce, Damage)
  }

  /** Update: count the cooldown down, then fire (spending one round, restarting the
      cooldown and casting the ray) or else possibly start a reload. */
  function Update(g: Gun, t: Trigger, dt: real, hit: Hitscan.RayHit, forward: Vec3): (r: FrameResult)
    ensures r.fired <==> CanFire(CountDown(g, dt), t)
    ensures r.fired ==> r.gun.ammo == g.ammo - 1 && r.gun.cooldown == FireRate && !r.gun.reloading
    ensures r.fired ==> r.effects == Shoot(hit, forward)
    ensures !r.fired ==> r.effects == [] && r.gun.ammo == g.ammo
    ensures !r.fired ==> (r.gun.reloading <==> g.reloading || WantsReload(g, AmmoCount, t))
    ensures !r.fired ==> r.gun.cooldown == CountDown(g, dt).cooldown
    ensures InBounds(g, AmmoCount) ==> InBounds(r.gun, AmmoCount)
  {
    var ready := CountDown(g, dt);
    var d := Decide(ready, AmmoCount, FireRate, t);
    FrameResult(d.gun, d.fired, if d.fired then Shoot(hit, forward) else [])
  }

  /** The inputs of one frame. */
  datatype Input = Input(trigger: Trigger, dt: real, hit: Hitscan.RayHit, forward: Vec3)

  /** Frames run back to back with no reload completing in between: the final
      weapon and the number of shots fired. */
  function Run(g: Gun, frames: seq<Input>): (Gun, nat)
    decreases |frames|
  {
    if |frames| == 0 then (g, 0)
    else
      var f := frames[0];
      var r := Update(g, f.trigger, f.dt, f.hit, f.forward);
      var rest := Run(r.gun, frames[1..]);
      (rest.0, rest.1 + (if r.fired then 1 else 0))
  }

  /** Every shot spends exactly one round and nothing else changes the count until a
      reload completes, so the shots fired never exceed the rounds loaded and the
      magazine ends exactly that many rounds lighter. */
  lemma {:induction false} ShotsSpendRounds(g: Gun, frames: seq<Input>)
    requires InBounds(g, AmmoCount)
    ensures Run(g, frames).1 <= g.ammo
    ensures Run(g, frames).0.ammo == g.ammo - Run(g, frames).1
    ensures InBounds(Run(g, frames).0, AmmoCount)
    decreases |frames|
  {
    if |frames| > 0 {
      var f := frames[0];
      var r := Update(g, f.trigger, f.dt, f.hit, f.forward);
      ShotsSpendRounds(r.gun, frames[1..]);
    }
  }

  /** After a full magazine's worth of shots the pistol is empty, and the next click
      starts a reload instead of firing. */
  lemma EmptyAfterFullMagazine(g: Gun, frames: seq<Input>, t: Trigger, dt: real, hit: Hitscan.RayHit, forward: Vec3)
    requires InBounds(g, AmmoCount) && Run(g, frames).1 == g.ammo
    requires t.fireDown && !Run(g, frames).0.reloading
    ensures Run(g, frames).0.ammo == 0
    ensures var r := Update(Run(g, frames).0, t, dt, hit, forward);
      !r.fired && r.gun.reloading && r.effects == []
  {
    ShotsSpendRounds(g, frames);
  }

  /** A shot on an enemy damages it and never pushes it; a shot on any other rigid
      body pushes it and never damages it. */
  lemma EnemiesTakeDamageNotImpulse(hit: Hitscan.RayHit, forward: Vec3)
    requires hit.Hit?
    ensures hit.isEnemy ==> forall e :: e in Shoot(hit, forward) ==> e.Damage? && e.amount == Damage
    ensures !hit.isEnemy ==> forall e :: e in Shoot(hit, forward) ==> e.Push?
  {
  }

  /** Switching to the pistol abandons a reload that was under way, so a weapon
      with rounds left and its cooldown run out fires on the next click instead of
      staying stuck until the animation event. */
  lemma SwitchBackFires(g: Gun, t: Trigger, dt: real, hit: Hitscan.RayHit, forward: Vec3)
    requires g.ammo > 0 && g.cooldown <= 0.0 && t.fireDown
    ensures var r := Update(OnEnable(g), t, dt, hit, forward);
      r.fired && r.gun.ammo == g.ammo - 1 && r.effects == Shoot(hit, forward)
  {
  }
}

=== FILE: player.dfy ===
/** The player controller: grounded movement, a buffered jump, and the four-state
    grapple machine, driven once per frame (Update) and once per physics tick
    (FixedUpdate). Everything the engine owns or computes (position and velocity of
    the rigid body, the ground check, raycast results, distances, elapsed time, the
    camera-relative move direction) arrives as an input record. Impulses given to the
    player's rigid body are recorded in `kicks` rather than simulated. */
module Player {

  import opened Wrappers
  import opened Vectors
  import CameraFov
  import PauseMenu

  datatype GrappleState = Normal | ThrowGrapple | Grappling | EndOfGrapple

  /** An instantaneous impulse applied to the player's rigid body. */
  datatype Kick =
    | JumpKick(force: real)         // the buffered ground jump
    | GrappleJumpKick(force: real)  // jumping off the grapple
    | LaunchKick(impulse: Vec3)     // the shotgun's recoil launch

  datatype PlayerState = PlayerState(
    state: GrappleState,
    position: Vec3,
    velocity: Vec3,
    moveInput: Vec3,
    moveDirection: Vec3,
    speed: real,
    maxAirSpeed: real,
    isJumping: bool,
    jumpBufferCounter: real,
    isGrounded: bool,
    grapplePos: Vec3,
    grappleSpeed: real,
    grappleSize: real,
    grappleEndPos: Vec3,
    isGrappling: bool,
    grapplePressed: bool,
    grappleJumpPressed: bool,
    ropeVisible: bool,
    camera: CameraFov.Camera,
    enemiesKilled: int,
    spawnPos: Vec3,
    kicks: seq<Kick>)

  /** What Update samples from the input system in one frame. `move` is the
      normalised (horizontal, 0, vertical) axis vector. */
  datatype FrameInput = FrameInput(
    move: Vec3,
    sprintHeld: bool,   // left shift held
    jumpDown: bool,     // space pressed this frame
    grappleDown: bool)  // right mouse button pressed this frame

  /** What FixedUpdate learns from the engine in one physics tick. */
  datatype PhysicsTick = PhysicsTick(
    grounded: bool,              // the ground sphere check
    position: Vec3,              // the rigid body's position before the tick
    velocity: Vec3,              // the rigid body's velocity before the tick
    worldMove: Vec3,             // the move input turned into world space and normalised
    grappleHit: Option<Vec3>,    // the grapple raycast's hit point, if it hits
    targetDistance: real,        // distance from the player to the grapple point
    dt: real)                    // elapsed time of the tick

  const WalkSpeed: real := 8.0
  const SprintSpeed: real := 12.0
  const AirSpeed: real := 7.0
  const InitialMaxAirSpeed: real := 20.0
  const JumpForce: real := 6.0
  const JumpBufferTime: real := 0.2
  /** The jump buffer stops counting down once it is at or below this value. */
  const JumpBufferFloor: real := -0.1
  const NormalFov: real := 80.0
  const GrappleFov: real := 100.0
  const GrappleRange: real := 40.0
  const GrappleSpeedMultiplier: real := 1.0
  const MinGrappleSpeed: real := 5.0
  const MaxGrappleSpeed: real := 40.0
  const GrappleThrowSpeed: real := 50.0
  /** The pull ends once the player is closer than this to the grapple point. */
  const GrappleArriveDistance: real := 1.0
  /** StopGrapple's literal reset value for the air speed cap. */
  const StoppedMaxAirSpeed: real := 20.0

  /** The invariants the controller keeps between calls. */
  predicate Valid(p: PlayerState)
  {
    && (p.state == Normal ==> !p.isGrappling)
    && (p.ropeVisible ==> p.isGrappling)
    && p.grappleSize >= 0.0
    && (p.speed == WalkSpeed || p.speed == SprintSpeed)
    && p.jumpBufferCounter <= JumpBufferTime
  }

  /** Field initialisation followed by Start: spawn where the player stands, walk,
      stand in the Normal state with the rope hidden. */
  function Start(position: Vec3, camera: CameraFov.Camera): (p: PlayerState)
    ensures Valid(p)
    ensures p.state == Normal && !p.isGrappling && !p.ropeVisible
    ensures p.spawnPos == p.position == position
    ensures p.speed == WalkSpeed && p.maxAirSpeed == InitialMaxAirSpeed
    ensures p.enemiesKilled == 0 && p.kicks == []
  {
    PlayerState(
      state := Normal,
      position := position,
      velocity := Zero,
      moveInput := Zero,
      moveDirection := Zero,
      speed := WalkSpeed,
      maxAirSpeed := InitialMaxAirSpeed,
      isJumping := false,
      jumpBufferCounter := 0.0,
      isGrounded := false,
      grapplePos := Zero,
      grappleSpeed := 0.0,
      grappleSize := 0.0,
      grappleEndPos := Zero,
      isGrappling := false,
      grapplePressed := false,
      grappleJumpPressed := false,
      ropeVisible := false,
      camera := camera,
      enemiesKilled := 0,
      spawnPos := position,
      kicks := [])
  }

  // ---------------------------------------------------------------------------
  // Frame step (Update)
  // ---------------------------------------------------------------------------

  /** The jump buffer: refilled while grounded; while airborne it counts down, but
      only as long as it is above the floor, so it comes to rest just below it. */
  function JumpBuffer(grounded: bool, counter: real, dt: real): (r: real)
    ensures grounded ==> r == JumpBufferTime
    ensures !grounded && counter > JumpBufferFloor ==> r == counter - dt
    ensures !grounded && counter <= JumpBufferFloor ==> r == counter
  {
    if grounded then JumpBufferTime
    else if counter > JumpBufferFloor then counter - dt
    else counter
  }

  /** Ground speed selection: on the ground, shift picks the sprint speed and its
      absence the walk speed, for both the speed and the air cap; in the air both
      are kept. Returns (speed, maxAirSpeed). */
  function SelectSpeed(grounded: bool, sprintHeld: bool, speed: real, maxAirSpeed: real): (r: (real, real))
    ensures grounded ==> r.0 == r.1 && (r.0 == SprintSpeed <==> sprintHeld)
    ensures grounded ==> r.0 == (if sprintHeld then SprintSpeed else WalkSpeed)
    ensures !grounded ==> r == (speed, maxAirSpeed)
  {
    if grounded && sprintHeld then (SprintSpeed, SprintSpeed)
    else if grounded && !sprintHeld then (WalkSpeed, WalkSpeed)
    else (speed, maxAirSpeed)
  }

  /** GetInputs: latches the jump, grapple and grapple-jump requests (they stay set
      until a physics tick consumes them) and selects the speed. */
  function GetInputs(p: PlayerState, input: FrameInput): (r: PlayerState)
    ensures r.isJumping <==> p.isJumping || (input.jumpDown && p.jumpBufferCounter > 0.0)
    ensures r.grapplePressed <==> p.grapplePressed || input.grappleDown
    ensures r.grappleJumpPressed <==> p.grappleJumpPressed || (input.jumpDown && p.isGrappling)
    ensures (r.speed, r.maxAirSpeed) == SelectSpeed(p.isGrounded, input.sprintHeld, p.speed, p.maxAirSpeed)
    ensures r.moveInput == input.move
    ensures r.state == p.state && r.isGrappling == p.isGrappling
    ensures r.jumpBufferCounter == p.jumpBufferCounter && r.kicks == p.kicks
  {
    var speeds := SelectSpeed(p.isGrounded, input.sprintHeld, p.speed, p.maxAirSpeed);
    p.(
      moveInput := input.move,
      speed := speeds.0,
      maxAirSpeed := speeds.1,
      isJumping := p.isJumping || (input.jumpDown && p.jumpBufferCounter > 0.0),
      grapplePressed := p.grapplePressed || input.grappleDown,
      grappleJumpPressed := p.grappleJumpPressed || (input.jumpDown && p.isGrappling))
  }

  /** Update: while unpaused, read the inputs (the jump test sees the buffer as it
      was before this frame's count-down), advance the jump buffer (using the
      ground flag of the last physics tick), and fall back to Normal whenever no
      grapple is active. */
  function Update(p: PlayerState, menu: PauseMenu.Menu, input: FrameInput, dt: real): (r: PlayerState)
    ensures menu.paused ==> r == p
    ensures !menu.paused ==> !r.isGrappling ==> r.state == Normal
    ensures !menu.paused ==> r.isGrappling ==> r.state == p.state
    ensures !menu.paused ==> r.jumpBufferCounter == JumpBuffer(p.isGrounded, p.jumpBufferCounter, dt)
    ensures !menu.paused ==> (r.isJumping <==> p.isJumping || (input.jumpDown && p.jumpBufferCounter > 0.0))
    ensures !menu.paused ==> (r.grapplePressed <==> p.grapplePressed || input.grappleDown)
    ensures !menu.paused ==> (r.grappleJumpPressed <==> p.grappleJumpPressed || (input.jumpDown && p.isGrappling))
    ensures !menu.paused ==> (r.speed, r.maxAirSpeed) == SelectSpeed(p.isGrounded, input.sprintHeld, p.speed, p.maxAirSpeed)
    ensures !menu.paused ==> r.moveInput == input.move
    ensures r.isGrappling == p.isGrappling && r.isGrounded == p.isGrounded
    ensures r.kicks == p.kicks && r.camera == p.camera && r.spawnPos == p.spawnPos
    ensures r.position == p.position && r.velocity == p.velocity && r.grapplePos == p.grapplePos
    ensures r.grappleSize == p.grappleSize && r.grappleEndPos == p.grappleEndPos
    ensures r.ropeVisible == p.ropeVisible && r.enemiesKilled == p.enemiesKilled
    // nothing but the inputs, the buffer and the state changes
    ensures r.(moveInput := p.moveInput, speed := p.speed, maxAirSpeed := p.maxAirSpeed,
               isJumping := p.isJumping, grapplePressed := p.grapplePressed,
               grappleJumpPressed := p.grappleJumpPressed,
               jumpBufferCounter := p.jumpBufferCounter, state := p.state) == p
  {
    if menu.paused then p
    else
      var q := GetInputs(p, input);
      var q' := q.(jumpBufferCounter := JumpBuffer(q.isGrounded, q.jumpBufferCounter, dt));
      if !q'.isGrappling then q'.(state := Normal) else q'
  }

  // ---------------------------------------------------------------------------
  // Physics-tick handlers
  // ---------------------------------------------------------------------------

  /** MovePlayer. On the ground the air cap follows the current speed and the
      horizontal velocity is set from the move direction while the vertical
      component is kept. In the air only the move direction is recomputed (the
      engine's velocity clamp and acceleration force are not modelled). A latched
      jump is consumed: one jump impulse, the flag cleared and the buffer emptied. */
  function MovePlayer(p: PlayerState, worldMove: Vec3): (r: PlayerState)
    ensures p.isGrounded ==> r.maxAirSpeed == p.speed
    ensures p.isGrounded ==> r.velocity == Vec3(worldMove.x * p.speed, p.velocity.y, worldMove.z * p.speed)
    ensures !p.isGrounded ==> r.velocity == p.velocity && r.maxAirSpeed == p.maxAirSpeed
    ensures p.isJumping ==> r.kicks == p.kicks + [JumpKick(JumpForce)] && r.jumpBufferCounter == 0.0
    ensures !p.isJumping ==> r.kicks == p.kicks && r.jumpBufferCounter == p.jumpBufferCounter
    ensures !r.isJumping
    ensures r.state == p.state && r.isGrappling == p.isGrappling && r.ropeVisible == p.ropeVisible
    ensures r.grapplePressed == p.grapplePressed && r.grappleJumpPressed == p.grappleJumpPressed
    ensures r.grappleSize == p.grappleSize && r.speed == p.speed && r.camera == p.camera
    ensures p.isGrounded ==> r.moveDirection == Scale(worldMove, p.speed)
    ensures !p.isGrounded && p.moveInput != Zero ==> r.moveDirection == Scale(worldMove, AirSpeed)
    ensures !p.isGrounded && p.moveInput == Zero ==> r.moveDirection == p.moveDirection
    // nothing but movement and the jump changes
    ensures r.(maxAirSpeed := p.maxAirSpeed, moveDirection := p.moveDirection, velocity := p.velocity,
               kicks := p.kicks, jumpBufferCounter := p.jumpBufferCounter, isJumping := p.isJumping) == p
  {
    var moved :=
      if p.isGrounded then
        var md := Scale(worldMove, p.speed);
        p.(maxAirSpeed := p.speed, moveDirection := md, velocity := Vec3(md.x, p.velocity.y, md.z))
      else if p.moveInput != Zero then
        p.(moveDirection := Scale(worldMove, AirSpeed))
      else
        p;
    if moved.isJumping then
      moved.(kicks := moved.kicks + [JumpKick(JumpForce)], jumpBufferCounter := 0.0, isJumping := false)
    else
      moved
  }

  /** The engine's world move is the move input turned into world space, so it is
      zero when the input is. Nothing else ties the two together. */
  predicate MoveAgrees(p: PlayerState, tick: PhysicsTick)
  {
    p.moveInput == Zero ==> tick.worldMove == Zero
  }

  /** With an agreeing world move, a grounded player with no move input gets no
      horizontal velocity and a zero move direction; the vertical velocity is kept. */
  lemma NoInputNoGroundMove(p: PlayerState, tick: PhysicsTick)
    requires MoveAgrees(p, tick) && p.isGrounded && p.moveInput == Zero
    ensures var r := MovePlayer(p, tick.worldMove);
      r.moveDirection == Zero && r.velocity == Vec3(0.0, p.velocity.y, 0.0)
  {
    assert Scale(tick.worldMove, p.speed) == Zero;
  }

  /** StartGrapple. A pending grapple request is always consumed. If the grapple ray
      hits, the throw begins from an empty rope toward the hit point; on a miss
      nothing else changes. */
  function StartGrapple(p: PlayerState, hit: Option<Vec3>): (r: PlayerState)
    ensures !r.grapplePressed
    ensures p.grapplePressed && hit.Some? ==>
      && r.state == ThrowGrapple && r.isGrappling && r.ropeVisible
      && r.grappleSize == 0.0 && r.grapplePos == hit.value
    ensures !(p.grapplePressed && hit.Some?) ==> r == p.(grapplePressed := false)
    ensures r.kicks == p.kicks && r.camera == p.camera && r.isJumping == p.isJumping
    ensures r.grappleJumpPressed == p.grappleJumpPressed
    // nothing but the grapple fields changes
    ensures r.(grapplePressed := p.grapplePressed, grapplePos := p.grapplePos, state := p.state,
               ropeVisible := p.ropeVisible, grappleSize := p.grappleSize,
               isGrappling := p.isGrappling) == p
  {
    if p.grapplePressed then
      var q := p.(grapplePressed := false);
      match hit
      case None => q
      case Some(point) =>
        q.(grapplePos := point, state := ThrowGrapple, ropeVisible := true, grappleSize := 0.0, isGrappling := true)
    else
      p
  }

  /** ThrowGrapple (the handler). The rope grows by GrappleThrowSpeed * dt; once it is at least as
      long as the distance to the grapple point the pull begins and the camera is
      asked to widen to the grapple field of view. */
  function ThrowGrappleStep(p: PlayerState, distance: real, dt: real): (r: PlayerState)
    ensures r.grappleSize == p.grappleSize + GrappleThrowSpeed * dt
    ensures r.grappleSize >= distance ==> r.state == Grappling && r.isGrappling && r.camera.target == GrappleFov
    ensures r.grappleSize < distance ==> r.state == p.state && r.camera == p.camera
    ensures r.camera.fov == p.camera.fov && r.ropeVisible == p.ropeVisible && r.kicks == p.kicks
    ensures r.isGrappling == (p.isGrappling || r.grappleSize >= distance)
    ensures r.isJumping == p.isJumping && r.jumpBufferCounter == p.jumpBufferCounter
    // nothing but the rope, the state and the camera target changes
    ensures r.(grappleSize := p.grappleSize, state := p.state, isGrappling := p.isGrappling,
               camera := p.camera) == p
  {
    var size := p.grappleSize + GrappleThrowSpeed * dt;
    if size >= distance then
      p.(grappleSize := size, state := Grappling, isGrappling := true,
         camera := CameraFov.SetCameraFov(p.camera, GrappleFov))
    else
      p.(grappleSize := size)
  }

  /** Mathf.Clamp. */
  function Clamp(x: real, lo: real, hi: real): (r: real)
    requires lo <= hi
    ensures lo <= r <= hi
    ensures lo <= x <= hi ==> r == x
    ensures x < lo ==> r == lo
    ensures x > hi ==> r == hi
  {
    if x < lo then lo else if x > hi then hi else x
  }

  /** The direction from the player to the grapple point, the offset divided by
      `distance` (zero length gives the zero vector, as Vector3.normalized does).
      It is a unit vector when `distance` is the engine's length of that offset,
      which DistanceAgrees states and nothing else enforces. */
  function GrappleDirection(p: PlayerState, distance: real): Vec3
  {
    if distance > 0.0 then Scale(Sub(p.grapplePos, p.position), 1.0 / distance) else Zero
  }

  /** The engine's distance is the length of the offset to the grapple point. */
  predicate DistanceAgrees(p: PlayerState, distance: real)
  {
    var offset := Sub(p.grapplePos, p.position);
    distance >= 0.0 && distance * distance == Dot(offset, offset)
  }

  /** With an agreeing positive distance the grapple direction has length one. */
  lemma GrappleDirectionIsUnit(p: PlayerState, distance: real)
    requires DistanceAgrees(p, distance) && distance > 0.0
    ensures Dot(GrappleDirection(p, distance), GrappleDirection(p, distance)) == 1.0
  {
    var offset := Sub(p.grapplePos, p.position);
    var k := 1.0 / distance;
    ScaleSquaredLength(offset, k);
    assert k * distance == 1.0;
    assert (k * k) * (distance * distance) == (k * distance) * (k * distance);
  }

  /** GrappleMovement. The pull speed is the distance clamped into
      [MinGrappleSpeed, MaxGrappleSpeed] and overrides the velocity entirely; once
      the player is within GrappleArriveDistance the current position is captured as
      the hanging point and the machine moves to EndOfGrapple. */
  function GrappleMovement(p: PlayerState, distance: real): (r: PlayerState)
    ensures MinGrappleSpeed <= r.grappleSpeed <= MaxGrappleSpeed
    ensures MinGrappleSpeed <= distance <= MaxGrappleSpeed ==> r.grappleSpeed == distance
    ensures r.velocity == Scale(GrappleDirection(p, distance), r.grappleSpeed * GrappleSpeedMultiplier)
    ensures p.state == Grappling ==> (r.state == EndOfGrapple <==> distance < GrappleArriveDistance)
    ensures distance < GrappleArriveDistance ==> r.state == EndOfGrapple && r.grappleEndPos == p.position
    ensures distance >= GrappleArriveDistance ==> r.state == p.state && r.grappleEndPos == p.grappleEndPos
    ensures r.isGrappling == p.isGrappling && r.ropeVisible == p.ropeVisible && r.kicks == p.kicks
    ensures r.grapplePressed == p.grapplePressed && r.grappleJumpPressed == p.grappleJumpPressed
    ensures r.camera == p.camera && r.grappleSize == p.grappleSize
    // nothing but the pull speed, the velocity and the arrival changes
    ensures r.(grappleSpeed := p.grappleSpeed, velocity := p.velocity,
               grappleEndPos := p.grappleEndPos, state := p.state) == p
  {
    var speed := Clamp(distance, MinGrappleSpeed, MaxGrappleSpeed);
    var q := p.(grappleSpeed := speed,
                velocity := Scale(GrappleDirection(p, distance), speed * GrappleSpeedMultiplier));
    if distance < GrappleArriveDistance then
      q.(grappleEndPos := p.position, state := EndOfGrapple)
    else
      q
  }

  /** With an agreeing positive distance the pull velocity's length is exactly the
      clamped grapple speed (times the multiplier, which is one). */
  lemma PullSpeedIsGrappleSpeed(p: PlayerState, distance: real)
    requires DistanceAgrees(p, distance) && distance > 0.0
    ensures var r := GrappleMovement(p, distance);
      Dot(r.velocity, r.velocity) == r.grappleSpeed * r.grappleSpeed
  {
    var r := GrappleMovement(p, distance);
    var dir := GrappleDirection(p, distance);
    var k := r.grappleSpeed * GrappleSpeedMultiplier;
    assert r.velocity == Scale(dir, k);
    GrappleDirectionIsUnit(p, distance);
    ScaleSquaredLength(dir, k);
  }

  /** EndOfGrapple: hold the player at the captured point and hide the rope. */
  function EndOfGrappleHold(p: PlayerState): (r: PlayerState)
    ensures r.position == p.grappleEndPos && !r.ropeVisible
    ensures r.state == p.state && r.isGrappling == p.isGrappling && r.kicks == p.kicks
    ensures r.grapplePressed == p.grapplePressed && r.grappleJumpPressed == p.grappleJumpPressed
    ensures r.velocity == p.velocity && r.grappleEndPos == p.grappleEndPos
    // nothing but the position and the rope changes
    ensures r.(position := p.position, ropeVisible := p.ropeVisible) == p
  {
    p.(position := p.grappleEndPos, ropeVisible := false)
  }

  /** StopGrapple: reset the air cap, release the grapple, hide the rope and ask the
      camera to return to the normal field of view. The state itself is left for
      Update to reset. */
  function StopGrapple(p: PlayerState): (r: PlayerState)
    ensures !r.isGrappling && !r.ropeVisible
    ensures r.maxAirSpeed == StoppedMaxAirSpeed
    ensures r.camera == CameraFov.SetCameraFov(p.camera, NormalFov)
    ensures r.state == p.state && r.kicks == p.kicks && r.position == p.position
    ensures r.velocity == p.velocity && r.spawnPos == p.spawnPos
    ensures r.grapplePressed == p.grapplePressed && r.grappleJumpPressed == p.grappleJumpPressed
    // nothing but the air cap, the grapple flag, the rope and the camera target changes
    ensures r.(maxAirSpeed := p.maxAirSpeed, isGrappling := p.isGrappling, ropeVisible := p.ropeVisible,
               camera := p.camera) == p
  {
    p.(maxAirSpeed := StoppedMaxAirSpeed, isGrappling := false, ropeVisible := false,
       camera := CameraFov.SetCameraFov(p.camera, NormalFov))
  }

  /** CancelGrapple. A pending grapple request drops the player out of the grapple
      with no velocity change; a pending grapple-jump adds one upward impulse and
      stops the grapple. Both requests are consumed. */
  function CancelGrapple(p: PlayerState): (r: PlayerState)
    ensures !r.grapplePressed && !r.grappleJumpPressed
    ensures p.grappleJumpPressed ==> r.kicks == p.kicks + [GrappleJumpKick(JumpForce)]
    ensures !p.grappleJumpPressed ==> r.kicks == p.kicks
    ensures (p.grapplePressed || p.grappleJumpPressed) ==> r == StopGrapple(r)
    ensures (p.grapplePressed || p.grappleJumpPressed) ==> !r.isGrappling && r.camera.target == NormalFov
    ensures !(p.grapplePressed || p.grappleJumpPressed) ==> r == p
    ensures r.state == p.state && r.velocity == p.velocity && r.position == p.position
    // nothing but the requests, the impulse log and what StopGrapple resets changes
    ensures r.(grapplePressed := p.grapplePressed, grappleJumpPressed := p.grappleJumpPressed,
               kicks := p.kicks, maxAirSpeed := p.maxAirSpeed, isGrappling := p.isGrappling,
               ropeVisible := p.ropeVisible, camera := p.camera) == p
  {
    var a := if p.grapplePressed then StopGrapple(p.(grapplePressed := false)) else p;
    if a.grappleJumpPressed then
      StopGrapple(a.(kicks := a.kicks + [GrappleJumpKick(JumpForce)], grappleJumpPressed := false))
    else
      a
  }

  /** GroundCheck plus the engine's current view of the body, taken at the start of
      every physics tick. */
  function Sense(p: PlayerState, tick: PhysicsTick): (r: PlayerState)
    ensures r.isGrounded == tick.grounded && r.position == tick.position && r.velocity == tick.velocity
    ensures r.(isGrounded := p.isGrounded, position := p.position, velocity := p.velocity) == p
  {
    p.(isGrounded := tick.grounded, position := tick.position, velocity := tick.velocity)
  }

  /** The handlers of a Normal tick: movement, then the grapple check. */
  function NormalHandlers(g: PlayerState, tick: PhysicsTick): (r: PlayerState)
    ensures r.state in {g.state, ThrowGrapple}
    ensures g.kicks <= r.kicks && |r.kicks| <= |g.kicks| + 1
  {
    StartGrapple(MovePlayer(g, tick.worldMove), tick.grappleHit)
  }

  /** The handlers of a ThrowGrapple tick: the throw, then movement. */
  function ThrowHandlers(g: PlayerState, tick: PhysicsTick): (r: PlayerState)
    ensures r.state in {g.state, Grappling}
    ensures g.kicks <= r.kicks && |r.kicks| <= |g.kicks| + 1
  {
    MovePlayer(ThrowGrappleStep(g, tick.targetDistance, tick.dt), tick.worldMove)
  }

  /** The handlers of a Grappling tick: the pull, then the cancel check. */
  function PullHandlers(g: PlayerState, tick: PhysicsTick): (r: PlayerState)
    ensures r.state in {g.state, EndOfGrapple}
    ensures g.kicks <= r.kicks && |r.kicks| <= |g.kicks| + 1
  {
    CancelGrapple(GrappleMovement(g, tick.targetDistance))
  }

  /** The handlers of an EndOfGrapple tick: the hold, the restart, then the cancel
      check. */
  function HoldHandlers(g: PlayerState, tick: PhysicsTick): (r: PlayerState)
    ensures r.state in {g.state, ThrowGrapple}
    ensures g.kicks <= r.kicks && |r.kicks| <= |g.kicks| + 1
  {
    CancelGrapple(StartGrapple(EndOfGrappleHold(g), tick.grappleHit))
  }

  /** The per-state handler order of one physics tick. Each state can only stay or
      move to its successor (EndOfGrapple back to ThrowGrapple on a restart), and a
      tick gives at most one impulse. */
  function Dispatch(g: PlayerState, tick: PhysicsTick): (r: PlayerState)
    ensures g.state == Normal ==> r.state in {Normal, ThrowGrapple}
    ensures g.state == ThrowGrapple ==> r.state in {ThrowGrapple, Grappling}
    ensures g.state == Grappling ==> r.state in {Grappling, EndOfGrapple}
    ensures g.state == EndOfGrapple ==> r.state in {EndOfGrapple, ThrowGrapple}
    ensures g.kicks <= r.kicks && |r.kicks| <= |g.kicks| + 1
  {
    match g.state
    case Normal => NormalHandlers(g, tick)
    case ThrowGrapple => ThrowHandlers(g, tick)
    case Grappling => PullHandlers(g, tick)
    case EndOfGrapple => HoldHandlers(g, tick)
  }

  /** FixedUpdate: while unpaused, sense the body and the ground, then run the
      handlers of the current state. */
  function FixedUpdate(p: PlayerState, menu: PauseMenu.Menu, tick: PhysicsTick): (r: PlayerState)
    ensures menu.paused ==> r == p
    ensures p.state == Normal ==> r.state in {Normal, ThrowGrapple}
    ensures p.state == ThrowGrapple ==> r.state in {ThrowGrapple, Grappling}
    ensures p.state == Grappling ==> r.state in {Grappling, EndOfGrapple}
    ensures p.state == EndOfGrapple ==> r.state in {EndOfGrapple, ThrowGrapple}
    ensures p.kicks <= r.kicks && |r.kicks| <= |p.kicks| + 1
  {
    if menu.paused then p else Dispatch(Sense(p, tick), tick)
  }

  /** Whether an unpaused tick from `p` runs MovePlayer with a latched jump, which
      happens in Normal and ThrowGrapple. */
  predicate JumpTick(p: PlayerState, menu: PauseMenu.Menu)
  {
    !menu.paused && p.isJumping && p.state in {Normal, ThrowGrapple}
  }

  /** The physics tick with the jump as evidently intended: taking off also clears
      the ground flag (as if MovePlayer's jump branch set it), so the frame update
      that follows cannot refill the buffer from the ground check taken before the
      jump. Every other tick is FixedUpdate. */
  function FixedUpdateCorrected(p: PlayerState, menu: PauseMenu.Menu, tick: PhysicsTick): (r: PlayerState)
    ensures JumpTick(p, menu) ==> !r.isGrounded && r.(isGrounded := tick.grounded) == FixedUpdate(p, menu, tick)
    ensures !JumpTick(p, menu) ==> r == FixedUpdate(p, menu, tick)
  {
    var r := FixedUpdate(p, menu, tick);
    if JumpTick(p, menu) then r.(isGrounded := false) else r
  }

  // ---------------------------------------------------------------------------
  // Engine callbacks and the interface other components use
  // ---------------------------------------------------------------------------

  /** OnCollisionEnter: touching the out-of-bounds layer teleports the player to the
      spawn point, returns to Normal, stops all momentum and stops the grapple. Any
      other collision changes nothing. */
  function OnCollisionEnter(p: PlayerState, outOfBounds: bool): (r: PlayerState)
    ensures outOfBounds ==>
      && r.position == p.spawnPos && r.velocity == Zero && r.state == Normal
      && !r.isGrappling && !r.ropeVisible && r.camera.target == NormalFov
      && r.maxAirSpeed == StoppedMaxAirSpeed
    ensures !outOfBounds ==> r == p
    ensures r.spawnPos == p.spawnPos && r.kicks == p.kicks
    // a respawn changes nothing but the body, the state and what StopGrapple resets
    ensures outOfBounds ==>
      r.(position := p.position, velocity := p.velocity, state := p.state, maxAirSpeed := p.maxAirSpeed,
         isGrappling := p.isGrappling, ropeVisible := p.ropeVisible, camera := p.camera) == p
  {
    if outOfBounds then StopGrapple(p.(position := p.spawnPos, state := Normal, velocity := Zero))
    else p
  }

  /** OnTriggerEnter: passing through a checkpoint makes its position the spawn
      point, whatever the spawn point was; other triggers change nothing. */
  function OnTriggerEnter(p: PlayerState, checkpoint: Option<Vec3>): (r: PlayerState)
    ensures checkpoint.Some? ==> r == p.(spawnPos := checkpoint.value)
    ensures checkpoint.None? ==> r == p
  {
    match checkpoint
    case Some(pos) => p.(spawnPos := pos)
    case None => p
  }

  function GetIsGrounded(p: PlayerState): bool
  {
    p.isGrounded
  }

  function SetMoveDirection(p: PlayerState, v: Vec3): (r: PlayerState)
    ensures r.moveDirection == v && r == p.(moveDirection := v)
  {
    p.(moveDirection := v)
  }

  function SetMaxAirSpeed(p: PlayerState, speed: real): (r: PlayerState)
    ensures r.maxAirSpeed == speed && r == p.(maxAirSpeed := speed)
  {
    p.(maxAirSpeed := speed)
  }

  /** SetEnemiesKilled: adds to the kill counter. */
  function SetEnemiesKilled(p: PlayerState, amount: int): (r: PlayerState)
    ensures r.enemiesKilled - p.enemiesKilled == amount
    ensures r == p.(enemiesKilled := r.enemiesKilled)
  {
    p.(enemiesKilled := p.enemiesKilled + amount)
  }
}

=== FILE: player_proofs.dfy ===
/** Properties of the player controller that relate several steps: the invariant
    every step keeps, the jump that fires once per buffer window, the phases of the
    grapple, and the respawn bookkeeping. */
module PlayerProofs {

  import opened Wrappers
  import opened Vectors
  import CameraFov
  import PauseMenu
  import opened Player

  // ---------------------------------------------------------------------------
  // The controller invariant
  // ---------------------------------------------------------------------------

  lemma UpdateKeepsValid(p: PlayerState, menu: PauseMenu.Menu, input: FrameInput, dt: real)
    requires Valid(p) && dt >= 0.0
    ensures Valid(Update(p, menu, input, dt))
  {
  }

  lemma NormalTickKeepsValid(g: PlayerState, tick: PhysicsTick)
    requires Valid(g) && g.state == Normal
    ensures Valid(StartGrapple(MovePlayer(g, tick.worldMove), tick.grappleHit))
  {
    var m := MovePlayer(g, tick.worldMove);
    assert Valid(m);
  }

  lemma ThrowTickKeepsValid(g: PlayerState, tick: PhysicsTick)
    requires Valid(g) && g.state == ThrowGrapple && tick.dt >= 0.0
    ensures Valid(MovePlayer(ThrowGrappleStep(g, tick.targetDistance, tick.dt), tick.worldMove))
  {
    var t := ThrowGrappleStep(g, tick.targetDistance, tick.dt);
    assert Valid(t);
  }

  lemma PullTickKeepsValid(g: PlayerState, tick: PhysicsTick)
    requires Valid(g) && g.state == Grappling
    ensures Valid(CancelGrapple(GrappleMovement(g, tick.targetDistance)))
  {
    var m := GrappleMovement(g, tick.targetDistance);
    assert Valid(m);
  }

  lemma HoldTickKeepsValid(g: PlayerState, tick: PhysicsTick)
    requires Valid(g) && g.state == EndOfGrapple
    ensures Valid(CancelGrapple(StartGrapple(EndOfGrappleHold(g), tick.grappleHit)))
  {
    var h := EndOfGrappleHold(g);
    assert Valid(h);
    var s := StartGrapple(h, tick.grappleHit);
    assert Valid(s);
  }

  lemma DispatchKeepsValid(g: PlayerState, tick: PhysicsTick)
    requires Valid(g) && tick.dt >= 0.0
    ensures Valid(Dispatch(g, tick))
  {
    match g.state
    case Normal => NormalTickKeepsValid(g, tick);
    case ThrowGrapple => ThrowTickKeepsValid(g, tick);
    case Grappling => PullTickKeepsValid(g, tick);
    case EndOfGrapple => HoldTickKeepsValid(g, tick);
  }

  lemma FixedUpdateKeepsValid(p: PlayerState, menu: PauseMenu.Menu, tick: PhysicsTick)
    requires Valid(p) && tick.dt >= 0.0
    ensures Valid(FixedUpdate(p, menu, tick))
  {
    if !menu.paused {
      DispatchKeepsValid(Sense(p, tick), tick);
    }
  }

  /** The engine callbacks keep the invariant. */
  lemma CallbacksKeepValid(p: PlayerState, outOfBounds: bool, checkpoint: Option<Vec3>)
    requires Valid(p)
    ensures Valid(OnCollisionEnter(p, outOfBounds))
    ensures Valid(OnTriggerEnter(p, checkpoint))
  {
  }

  /** The setters the shotgun and the enemies call keep the invariant (the whole
      launch is Shotgun.LaunchKeepsValid). */
  lemma SettersKeepValid(p: PlayerState, v: Vec3, speed: real, amount: int)
    requires Valid(p)
    ensures Valid(SetMoveDirection(p, v))
    ensures Valid(SetMaxAirSpeed(p, speed))
    ensures Valid(SetEnemiesKilled(p, amount))
  {
  }

  // ---------------------------------------------------------------------------
  // The jump buffer and the jump
  // ---------------------------------------------------------------------------

  /** Once the airborne buffer is at or below the floor it stops changing; above the
      floor it never increases while airborne. */
  lemma JumpBufferSettles(counter: real, dt: real)
    requires dt >= 0.0
    ensures counter <= JumpBufferFloor ==> JumpBuffer(false, counter, dt) == counter
    ensures JumpBuffer(false, counter, dt) <= counter
    ensures JumpBuffer(true, counter, dt) == JumpBufferTime
  {
  }

  /** The number of ground jumps recorded in an impulse log. */
  function JumpKicks(ks: seq<Kick>): nat
  {
    if |ks| == 0 then 0
    else JumpKicks(ks[..|ks| - 1]) + (if ks[|ks| - 1].JumpKick? then 1 else 0)
  }

  lemma JumpKicksAppend(ks: seq<Kick>, k: Kick)
    ensures JumpKicks(ks + [k]) == JumpKicks(ks) + (if k.JumpKick? then 1 else 0)
  {
    assert (ks + [k])[..|ks|] == ks;
  }

  /** A buffered jump: a press while the buffer is positive latches the jump, and
      the next Normal or ThrowGrapple tick applies exactly one jump impulse, clears
      the latch and empties the buffer. */
  lemma BufferedJumpFiresOnce(p: PlayerState, menu: PauseMenu.Menu, input: FrameInput, dt: real, tick: PhysicsTick)
    requires !menu.paused && input.jumpDown && p.jumpBufferCounter > 0.0
    requires Update(p, menu, input, dt).state in {Normal, ThrowGrapple}
    ensures Update(p, menu, input, dt).isJumping
    ensures var r := FixedUpdate(Update(p, menu, input, dt), menu, tick);
      && r.kicks == p.kicks + [JumpKick(JumpForce)]
      && !r.isJumping && r.jumpBufferCounter == 0.0
  {
    var u := Update(p, menu, input, dt);
    var g := Sense(u, tick);
    if g.state == Normal {
      var m := MovePlayer(g, tick.worldMove);
      assert m.kicks == p.kicks + [JumpKick(JumpForce)];
    } else {
      var t := ThrowGrappleStep(g, tick.targetDistance, tick.dt);
      assert t.isJumping;
    }
  }

  /** An airborne player whose buffer is spent and whose jump is not latched. */
  predicate Spent(p: PlayerState)
  {
    !p.isJumping && p.jumpBufferCounter <= 0.0 && !p.isGrounded
  }

  /** One engine callback: a physics tick or a frame update. The engine runs any
      number of physics ticks (none, one or several) between two frame updates. */
  datatype Event =
    | PhysicsStep(tick: PhysicsTick)
    | FrameStep(input: FrameInput, dt: real)

  /** Runs one event. With `corrected` the physics tick is FixedUpdateCorrected, the
      jump as evidently intended; otherwise it is FixedUpdate, the code as written. */
  function Apply(p: PlayerState, menu: PauseMenu.Menu, e: Event, corrected: bool): PlayerState
  {
    match e
    case PhysicsStep(tick) =>
      if corrected then FixedUpdateCorrected(p, menu, tick) else FixedUpdate(p, menu, tick)
    case FrameStep(input, dt) => Update(p, menu, input, dt)
  }

  function Play(p: PlayerState, menu: PauseMenu.Menu, events: seq<Event>, corrected: bool): PlayerState
    decreases |events|
  {
    if |events| == 0 then p else Play(Apply(p, menu, events[0], corrected), menu, events[1..], corrected)
  }

  lemma PlayCons(p: PlayerState, menu: PauseMenu.Menu, e: Event, rest: seq<Event>, corrected: bool)
    ensures Play(p, menu, [e] + rest, corrected) == Play(Apply(p, menu, e, corrected), menu, rest, corrected)
  {
    assert ([e] + rest)[1..] == rest;
  }

  /** A physics tick that finds no ground, or a frame update with a non-negative
      elapsed time. */
  predicate AirborneEvent(e: Event)
  {
    match e
    case PhysicsStep(tick) => !tick.grounded
    case FrameStep(_, dt) => dt >= 0.0
  }

  lemma SpentPull(g: PlayerState, tick: PhysicsTick)
    requires Spent(g) && g.state == Grappling
    ensures var r := CancelGrapple(GrappleMovement(g, tick.targetDistance));
      Spent(r) && JumpKicks(r.kicks) == JumpKicks(g.kicks)
  {
    var m := GrappleMovement(g, tick.targetDistance);
    assert m.isJumping == g.isJumping && m.jumpBufferCounter == g.jumpBufferCounter;
    JumpKicksAppend(m.kicks, GrappleJumpKick(JumpForce));
  }

  lemma SpentHold(g: PlayerState, tick: PhysicsTick)
    requires Spent(g) && g.state == EndOfGrapple
    ensures var r := CancelGrapple(StartGrapple(EndOfGrappleHold(g), tick.grappleHit));
      Spent(r) && JumpKicks(r.kicks) == JumpKicks(g.kicks)
  {
    var s := StartGrapple(EndOfGrappleHold(g), tick.grappleHit);
    assert Spent(s) && s.kicks == g.kicks;
    JumpKicksAppend(s.kicks, GrappleJumpKick(JumpForce));
  }

  lemma SpentDispatch(g: PlayerState, tick: PhysicsTick)
    requires Spent(g)
    ensures Spent(Dispatch(g, tick))
    ensures JumpKicks(Dispatch(g, tick).kicks) == JumpKicks(g.kicks)
  {
    match g.state
    case Normal =>
    case ThrowGrapple =>
    case Grappling => SpentPull(g, tick);
    case EndOfGrapple => SpentHold(g, tick);
  }

  lemma SpentApply(p: PlayerState, menu: PauseMenu.Menu, e: Event, corrected: bool)
    requires Spent(p) && AirborneEvent(e)
    ensures Spent(Apply(p, menu, e, corrected))
    ensures JumpKicks(Apply(p, menu, e, corrected).kicks) == JumpKicks(p.kicks)
  {
    if e.PhysicsStep? && !menu.paused {
      assert !JumpTick(p, menu);
      SpentDispatch(Sense(p, e.tick), e.tick);
    }
  }

  /** Jump at most once per buffer window: once the buffer is spent, no schedule of
      airborne physics ticks and frame updates, in any interleaving and whatever
      keys are pressed, adds another ground jump until a physics tick finds the
      ground again. This holds for the code as written and for the corrected jump. */
  lemma {:induction false} NoJumpUntilGrounded(p: PlayerState, menu: PauseMenu.Menu, events: seq<Event>, corrected: bool)
    requires Spent(p)
    requires forall i :: 0 <= i < |events| ==> AirborneEvent(events[i])
    ensures Spent(Play(p, menu, events, corrected))
    ensures JumpKicks(Play(p, menu, events, corrected).kicks) == JumpKicks(p.kicks)
    decreases |events|
  {
    if |events| > 0 {
      SpentApply(p, menu, events[0], corrected);
      NoJumpUntilGrounded(Apply(p, menu, events[0], corrected), menu, events[1..], corrected);
    }
  }

  /** A jump taken in the air spends the buffer: after an airborne tick that
      consumes the latched jump the player is in the Spent condition. (A jump taken
      on the ground does not; see GroundJumpJumpsTwice.) */
  lemma JumpSpendsBuffer(p: PlayerState, menu: PauseMenu.Menu, tick: PhysicsTick)
    requires !menu.paused && !tick.grounded && p.isJumping
    requires p.state in {Normal, ThrowGrapple}
    ensures Spent(FixedUpdate(p, menu, tick))
  {
    var g := Sense(p, tick);
    if g.state == ThrowGrapple {
      var t := ThrowGrappleStep(g, tick.targetDistance, tick.dt);
      assert t.isJumping && !t.isGrounded;
    }
  }

  /** The tick that consumes a latched jump gives exactly one jump impulse and
      clears the latch and the buffer. */
  lemma JumpTickKicksOnce(p: PlayerState, menu: PauseMenu.Menu, tick: PhysicsTick)
    requires JumpTick(p, menu)
    ensures var r := FixedUpdate(p, menu, tick);
      && r.kicks == p.kicks + [JumpKick(JumpForce)]
      && !r.isJumping && r.jumpBufferCounter == 0.0 && r.isGrounded == tick.grounded
  {
    var g := Sense(p, tick);
    if g.state == ThrowGrapple {
      var t := ThrowGrappleStep(g, tick.targetDistance, tick.dt);
      assert t.isJumping && t.kicks == p.kicks;
    }
  }

  /** With the jump as evidently intended, a jump taken on the ground is also the
      only one: the jump tick leaves the buffer spent, so no schedule of airborne
      ticks and frame updates after it adds a second ground jump. */
  lemma GroundJumpOnce(p: PlayerState, menu: PauseMenu.Menu, tick: PhysicsTick, events: seq<Event>)
    requires JumpTick(p, menu)
    requires forall i :: 0 <= i < |events| ==> AirborneEvent(events[i])
    ensures var r := Play(FixedUpdateCorrected(p, menu, tick), menu, events, true);
      Spent(r) && JumpKicks(r.kicks) == JumpKicks(p.kicks) + 1
  {
    JumpTickKicksOnce(p, menu, tick);
    var q := FixedUpdateCorrected(p, menu, tick);
    JumpKicksAppend(p.kicks, JumpKick(JumpForce));
    assert Spent(q) && JumpKicks(q.kicks) == JumpKicks(p.kicks) + 1;
    NoJumpUntilGrounded(q, menu, events, true);
  }

  const NoKeys: FrameInput := FrameInput(Zero, false, false, false)
  const SpaceKey: FrameInput := FrameInput(Zero, false, true, false)

  /** A ground jump followed by a second Space press in the air: a frame with no
      keys and one with Space (both on the ground), the jump tick on the ground, a
      frame with no keys, an airborne tick, Space again, another airborne tick. */
  function JumpTwiceSchedule(t1: PhysicsTick, t2: PhysicsTick, t3: PhysicsTick): seq<Event>
  {
    [FrameStep(NoKeys, 0.02), FrameStep(SpaceKey, 0.02), PhysicsStep(t1),
     FrameStep(NoKeys, 0.02), PhysicsStep(t2), FrameStep(SpaceKey, 0.02), PhysicsStep(t3)]
  }

  lemma SliceCons(es: seq<Event>, k: nat)
    requires k < |es|
    ensures es[k..] == [es[k]] + es[k + 1..]
  {
  }

  /** Play over a seven-event schedule is seven Applys in a row. */
  lemma PlaySeven(p: PlayerState, menu: PauseMenu.Menu, es: seq<Event>, c: bool)
    requires |es| == 7
    ensures Play(p, menu, es, c) ==
      Apply(Apply(Apply(Apply(Apply(Apply(Apply(p, menu, es[0], c), menu, es[1], c),
        menu, es[2], c), menu, es[3], c), menu, es[4], c), menu, es[5], c), menu, es[6], c)
  {
    var s1 := Apply(p, menu, es[0], c);
    var s2 := Apply(s1, menu, es[1], c);
    var s3 := Apply(s2, menu, es[2], c);
    var s4 := Apply(s3, menu, es[3], c);
    var s5 := Apply(s4, menu, es[4], c);
    var s6 := Apply(s5, menu, es[5], c);
    assert es[0..] == es;
    SliceCons(es, 0);
    PlayCons(p, menu, es[0], es[1..], c);
    SliceCons(es, 1);
    PlayCons(s1, menu, es[1], es[2..], c);
    SliceCons(es, 2);
    PlayCons(s2, menu, es[2], es[3..], c);
    SliceCons(es, 3);
    PlayCons(s3, menu, es[3], es[4..], c);
    SliceCons(es, 4);
    PlayCons(s4, menu, es[4], es[5..], c);
    SliceCons(es, 5);
    PlayCons(s5, menu, es[5], es[6..], c);
    SliceCons(es, 6);
    PlayCons(s6, menu, es[6], es[7..], c);
    assert es[7..] == [];
  }

  /** As written, the frame update after a ground jump tick reads the ground flag of
      that tick and refills the buffer the jump had just emptied, so a Space press
      within the buffer time after take-off fires a second jump in the air. With the
      corrected jump the same schedule gives one jump. */
  lemma GroundJumpJumpsTwice(p: PlayerState, menu: PauseMenu.Menu, t1: PhysicsTick, t2: PhysicsTick, t3: PhysicsTick)
    requires !menu.paused && p.isGrounded && !p.isGrappling && !p.grapplePressed
    requires t1.grounded && !t2.grounded && !t3.grounded
    ensures Play(p, menu, JumpTwiceSchedule(t1, t2, t3), false).kicks
      == p.kicks + [JumpKick(JumpForce), JumpKick(JumpForce)]
    ensures Play(p, menu, JumpTwiceSchedule(t1, t2, t3), true).kicks == p.kicks + [JumpKick(JumpForce)]
  {
    var es := JumpTwiceSchedule(t1, t2, t3);
    PlaySeven(p, menu, es, false);
    PlaySeven(p, menu, es, true);
    // both runs agree up to the jump tick
    var s1 := Update(p, menu, NoKeys, 0.02);
    var s2 := Update(s1, menu, SpaceKey, 0.02);
    assert s2.isJumping && s2.isGrounded && s2.state == Normal && !s2.grapplePressed;
    assert Apply(Apply(p, menu, es[0], false), menu, es[1], false) == s2;
    assert Apply(Apply(p, menu, es[0], true), menu, es[1], true) == s2;
    WrittenJumpsAgain(s2, menu, t1, t2, t3);
    CorrectedJumpsOnce(s2, menu, t1, t2, t3);
  }

  /** The as-written half: after the ground jump tick the buffer is refilled, and
      the second Space press latches and fires another jump. */
  lemma WrittenJumpsAgain(s2: PlayerState, menu: PauseMenu.Menu, t1: PhysicsTick, t2: PhysicsTick, t3: PhysicsTick)
    requires !menu.paused && s2.isJumping && s2.state == Normal && !s2.grapplePressed && !s2.isGrappling
    requires t1.grounded && !t2.grounded && !t3.grounded
    ensures var w3 := FixedUpdate(s2, menu, t1);
      var w4 := Update(w3, menu, NoKeys, 0.02);
      var w5 := FixedUpdate(w4, menu, t2);
      var w6 := Update(w5, menu, SpaceKey, 0.02);
      FixedUpdate(w6, menu, t3).kicks == s2.kicks + [JumpKick(JumpForce), JumpKick(JumpForce)]
  {
    JumpTickKicksOnce(s2, menu, t1);
    var w3 := FixedUpdate(s2, menu, t1);
    assert w3.isGrounded && w3.state == Normal && !w3.isGrappling && !w3.grapplePressed;
    var w4 := Update(w3, menu, NoKeys, 0.02);
    assert w4.jumpBufferCounter == JumpBufferTime && !w4.isJumping && w4.state == Normal;
    var w5 := FixedUpdate(w4, menu, t2);
    assert w5.kicks == w3.kicks && w5.state == Normal && !w5.isGrappling && !w5.grapplePressed;
    var w6 := Update(w5, menu, SpaceKey, 0.02);
    assert w6.isJumping && w6.state == Normal;
    JumpTickKicksOnce(w6, menu, t3);
  }

  /** The corrected half: the jump tick leaves the buffer spent, so the second
      Space press latches nothing. */
  lemma CorrectedJumpsOnce(s2: PlayerState, menu: PauseMenu.Menu, t1: PhysicsTick, t2: PhysicsTick, t3: PhysicsTick)
    requires !menu.paused && s2.isJumping && s2.state == Normal && !s2.grapplePressed && !s2.isGrappling
    requires !t2.grounded && !t3.grounded
    ensures var c3 := FixedUpdateCorrected(s2, menu, t1);
      var c4 := Update(c3, menu, NoKeys, 0.02);
      var c5 := FixedUpdate(c4, menu, t2);
      var c6 := Update(c5, menu, SpaceKey, 0.02);
      FixedUpdate(c6, menu, t3).kicks == s2.kicks + [JumpKick(JumpForce)]
  {
    JumpTickKicksOnce(s2, menu, t1);
    var c3 := FixedUpdateCorrected(s2, menu, t1);
    assert Spent(c3) && c3.state == Normal && !c3.isGrappling && !c3.grapplePressed;
    var c4 := Update(c3, menu, NoKeys, 0.02);
    assert Spent(c4) && c4.state == Normal && !c4.grapplePressed;
    var c5 := FixedUpdate(c4, menu, t2);
    assert Spent(c5) && c5.kicks == c3.kicks && c5.state == Normal && !c5.isGrappling && !c5.grapplePressed;
    var c6 := Update(c5, menu, SpaceKey, 0.02);
    assert !c6.isJumping && c6.state == Normal && !c6.grapplePressed;
  }

  // ---------------------------------------------------------------------------
  // Grapple phases
  // ---------------------------------------------------------------------------

  /** The grapple start: in Normal, movement runs first (a latched jump is taken),
      then a pending request whose ray hits begins a throw toward the hit point
      from an empty, visible rope. */
  lemma GrappleStartsFromNormal(p: PlayerState, menu: PauseMenu.Menu, tick: PhysicsTick)
    requires !menu.paused && p.state == Normal && p.grapplePressed && tick.grappleHit.Some?
    ensures var r := FixedUpdate(p, menu, tick);
      && r.state == ThrowGrapple && r.isGrappling && r.ropeVisible && !r.grapplePressed
      && r.grappleSize == 0.0 && r.grapplePos == tick.grappleHit.value
      && r.kicks == (if p.isJumping then p.kicks + [JumpKick(JumpForce)] else p.kicks)
      && !r.isJumping
  {
    var m := MovePlayer(Sense(p, tick), tick.worldMove);
    assert FixedUpdate(p, menu, tick) == StartGrapple(m, tick.grappleHit);
  }

  /** The hold: in EndOfGrapple with nothing pressed the player is put back on the
      captured point and the rope is hidden. The velocity is the engine's; the hold
      does not change it. */
  lemma HoldAtEnd(p: PlayerState, menu: PauseMenu.Menu, tick: PhysicsTick)
    requires !menu.paused && p.state == EndOfGrapple && !p.grapplePressed && !p.grappleJumpPressed
    ensures var r := FixedUpdate(p, menu, tick);
      && r.state == EndOfGrapple && r.position == p.grappleEndPos && r.velocity == tick.velocity
      && !r.ropeVisible && r.isGrappling == p.isGrappling && r.kicks == p.kicks
      && r.camera == p.camera && r.grappleEndPos == p.grappleEndPos
  {
    var h := EndOfGrappleHold(Sense(p, tick));
    assert FixedUpdate(p, menu, tick) == CancelGrapple(StartGrapple(h, tick.grappleHit));
  }

  /** The throw phase: each tick the rope grows by GrappleThrowSpeed * dt, and the
      machine moves on to Grappling exactly when the rope reaches the grapple point;
      otherwise it stays in ThrowGrapple. */
  lemma ThrowPhase(p: PlayerState, menu: PauseMenu.Menu, tick: PhysicsTick)
    requires !menu.paused && p.state == ThrowGrapple
    ensures var r := FixedUpdate(p, menu, tick);
      && r.grappleSize == p.grappleSize + GrappleThrowSpeed * tick.dt
      && (r.state == Grappling <==> r.grappleSize >= tick.targetDistance)
      && (r.state != Grappling ==> r.state == ThrowGrapple)
      && (r.state == Grappling ==> r.camera.target == GrappleFov && r.isGrappling)
      && (tick.dt > 0.0 ==> r.grappleSize > p.grappleSize)
  {
    var g := Sense(p, tick);
    var t := ThrowGrappleStep(g, tick.targetDistance, tick.dt);
    assert FixedUpdate(p, menu, tick) == MovePlayer(t, tick.worldMove);
  }

  /** The pull phase: the speed stays in [MinGrappleSpeed, MaxGrappleSpeed] and the
      machine moves to EndOfGrapple, capturing the sensed position, exactly when the
      distance falls below GrappleArriveDistance. */
  lemma PullPhase(p: PlayerState, menu: PauseMenu.Menu, tick: PhysicsTick)
    requires !menu.paused && p.state == Grappling
    ensures var r := FixedUpdate(p, menu, tick);
      && MinGrappleSpeed <= r.grappleSpeed <= MaxGrappleSpeed
      && (r.state == EndOfGrapple <==> tick.targetDistance < GrappleArriveDistance)
      && (r.state == EndOfGrapple ==> r.grappleEndPos == tick.position)
      && (r.state != EndOfGrapple ==> r.state == Grappling)
  {
    var g := Sense(p, tick);
    var m := GrappleMovement(g, tick.targetDistance);
    assert FixedUpdate(p, menu, tick) == CancelGrapple(m);
  }

  /** In EndOfGrapple a right click restarts the grapple check before the cancel
      check runs, so it never cancels: without a grapple-jump the grapple stays
      active, whether or not the new ray hits. */
  lemma RightClickNeverCancelsAtEnd(p: PlayerState, menu: PauseMenu.Menu, tick: PhysicsTick)
    requires Valid(p) && !menu.paused && p.state == EndOfGrapple && p.isGrappling
    requires !p.grappleJumpPressed
    ensures FixedUpdate(p, menu, tick).isGrappling
    ensures !FixedUpdate(p, menu, tick).grapplePressed
    ensures FixedUpdate(p, menu, tick).kicks == p.kicks
  {
    var g := Sense(p, tick);
    var h := EndOfGrappleHold(g);
    var s := StartGrapple(h, tick.grappleHit);
    assert s.isGrappling && !s.grapplePressed && !s.grappleJumpPressed;
    assert FixedUpdate(p, menu, tick) == CancelGrapple(s);
  }

  /** A grapple-jump while grappling: one upward impulse, then the grapple stops. */
  lemma GrappleJumpCancels(p: PlayerState, menu: PauseMenu.Menu, tick: PhysicsTick)
    requires !menu.paused && p.state == Grappling && p.grappleJumpPressed
    ensures var r := FixedUpdate(p, menu, tick);
      && r.kicks == p.kicks + [GrappleJumpKick(JumpForce)]
      && !r.isGrappling && r.camera.target == NormalFov && r.maxAirSpeed == StoppedMaxAirSpeed
  {
    var m := GrappleMovement(Sense(p, tick), tick.targetDistance);
    assert FixedUpdate(p, menu, tick) == CancelGrapple(m);
  }

  /** A right click together with a grapple-jump while hanging: the restart runs
      first and begins a new throw, then the jump stops it, leaving the machine in
      ThrowGrapple with no active grapple and the rope hidden. A frame update would
      reset it to Normal, but the engine may run another physics tick first (see
      RegrappleAfterJumpOff). */
  lemma RestartThenJumpAtEnd(p: PlayerState, menu: PauseMenu.Menu, tick: PhysicsTick)
    requires !menu.paused && p.state == EndOfGrapple
    requires p.grapplePressed && p.grappleJumpPressed && tick.grappleHit.Some?
    ensures var r := FixedUpdate(p, menu, tick);
      && r.state == ThrowGrapple && !r.isGrappling && !r.ropeVisible
      && r.grapplePos == tick.grappleHit.value
      && r.kicks == p.kicks + [GrappleJumpKick(JumpForce)]
  {
    var s := StartGrapple(EndOfGrappleHold(Sense(p, tick)), tick.grappleHit);
    assert FixedUpdate(p, menu, tick) == CancelGrapple(s);
  }

  /** If another physics tick comes before the frame update, the leftover throw
      state keeps throwing from an empty rope. When the grapple point is within
      GrappleThrowSpeed * dt the player the grapple-jump just released is pulled in
      again, with the grapple active, the rope hidden and the grapple field of view. */
  lemma RegrappleAfterJumpOff(p: PlayerState, menu: PauseMenu.Menu, tick1: PhysicsTick, tick2: PhysicsTick)
    requires !menu.paused && p.state == EndOfGrapple
    requires p.grapplePressed && p.grappleJumpPressed && tick1.grappleHit.Some?
    requires tick2.targetDistance <= GrappleThrowSpeed * tick2.dt
    ensures var q := FixedUpdate(p, menu, tick1);
      var r := FixedUpdate(q, menu, tick2);
      && !q.isGrappling
      && r.state == Grappling && r.isGrappling && !r.ropeVisible
      && r.camera.target == GrappleFov
      && r.grapplePos == tick1.grappleHit.value
  {
    RestartThenJumpAtEnd(p, menu, tick1);
    var q := FixedUpdate(p, menu, tick1);
    var g := Sense(q, tick2);
    var t := ThrowGrappleStep(g, tick2.targetDistance, tick2.dt);
    assert g.grappleSize == 0.0;
    assert FixedUpdate(q, menu, tick2) == MovePlayer(t, tick2.worldMove);
  }

  /** StopGrapple twice is StopGrapple once. */
  lemma StopGrappleIdempotent(p: PlayerState)
    ensures StopGrapple(StopGrapple(p)) == StopGrapple(p)
  {
  }

  /** After a stop, the next unpaused frame update returns the machine to Normal. */
  lemma StopThenUpdateIsNormal(p: PlayerState, menu: PauseMenu.Menu, input: FrameInput, dt: real)
    requires !menu.paused
    ensures Update(StopGrapple(p), menu, input, dt).state == Normal
  {
  }

  /** With nothing pressed and no active grapple, a Normal tick never starts one. */
  lemma NoGrappleWithoutRequest(p: PlayerState, menu: PauseMenu.Menu, tick: PhysicsTick)
    requires !menu.paused && p.state == Normal && !p.grapplePressed
    ensures FixedUpdate(p, menu, tick).state == Normal
    ensures FixedUpdate(p, menu, tick).isGrappling == p.isGrappling
  {
  }

  // ---------------------------------------------------------------------------
  // Respawn and checkpoints
  // ---------------------------------------------------------------------------

  /** The spawn point after a run of trigger events: the last checkpoint touched, or
      the original spawn point if none was. */
  function LastCheckpoint(spawn: Vec3, triggers: seq<Option<Vec3>>): Vec3
    decreases |triggers|
  {
    if |triggers| == 0 then spawn
    else
      var last := triggers[|triggers| - 1];
      if last.Some? then last.value else LastCheckpoint(spawn, triggers[..|triggers| - 1])
  }

  function Triggers(p: PlayerState, triggers: seq<Option<Vec3>>): PlayerState
    decreases |triggers|
  {
    if |triggers| == 0 then p else Triggers(OnTriggerEnter(p, triggers[0]), triggers[1..])
  }

  lemma {:induction false} LastCheckpointPrepend(spawn: Vec3, t: Option<Vec3>, rest: seq<Option<Vec3>>)
    ensures LastCheckpoint(spawn, [t] + rest) == LastCheckpoint(if t.Some? then t.value else spawn, rest)
    decreases |rest|
  {
    if |rest| == 0 {
      assert LastCheckpoint(spawn, [t]) == LastCheckpoint(spawn, []) || t.Some?;
    } else {
      var n := [t] + rest;
      assert n[..|n| - 1] == [t] + rest[..|rest| - 1];
      LastCheckpointPrepend(spawn, t, rest[..|rest| - 1]);
    }
  }

  /** The last checkpoint touched wins, regardless of the order in which
      checkpoints were passed; nothing but the spawn point changes. */
  lemma {:induction false} LastCheckpointWins(p: PlayerState, triggers: seq<Option<Vec3>>)
    ensures Triggers(p, triggers).spawnPos == LastCheckpoint(p.spawnPos, triggers)
    ensures Triggers(p, triggers) == p.(spawnPos := Triggers(p, triggers).spawnPos)
    decreases |triggers|
  {
    if |triggers| > 0 {
      var q := OnTriggerEnter(p, triggers[0]);
      LastCheckpointWins(q, triggers[1..]);
      assert triggers == [triggers[0]] + triggers[1..];
      LastCheckpointPrepend(p.spawnPos, triggers[0], triggers[1..]);
    }
  }

  /** Falling out of bounds after passing a checkpoint lands the player on that
      checkpoint, at rest, in Normal, with the grapple stopped. */
  lemma RespawnAtCheckpoint(p: PlayerState, checkpoint: Vec3)
    ensures var r := OnCollisionEnter(OnTriggerEnter(p, Some(checkpoint)), true);
      && r.position == checkpoint && r.velocity == Zero && r.state == Normal
      && !r.isGrappling && !r.ropeVisible && r.camera.target == NormalFov
  {
  }
}

=== FILE: shotgun.dfy ===
/** The shotgun: a two-round magazine, six rays per shot, and a recoil launch that
    throws an airborne player backwards. Unlike the pistol, the fire/reload decision
    comes first in a frame and the cooldown counts down after it. */
module Shotgun {

  import opened Vectors
  import opened Weapon
  import Hitscan
  import Player
  import Enemy

  const AmmoCapacity: int := 2
  const Damage: real := 10.0
  const Projectiles: nat := 6
  /** Length of each ray; it bounds which objects the engine reports hit. */
  const Range: real := 15.0
  const HitForce: real := 50.0
  const LaunchForce: real := 15.0
  const FireRate: real := 0.25
  /** The air speed cap the launch gives the player. */
  const LaunchMaxAirSpeed: real := 15.0

  /** What one frame of the shotgun produced. */
  datatype FrameResult = FrameResult(gun: Gun, player: Player.PlayerState, fired: bool, effects: seq<Hitscan.Effect>)

  /** Start. */
  function Start(): (g: Gun)
    ensures g.ammo == AmmoCapacity && !g.reloading && InBounds(g, AmmoCapacity)
  {
    Load(AmmoCapacity)
  }

  /** LaunchPlayer: only an airborne player is launched. Velocity and move direction
      are zeroed, one impulse opposite the view direction is applied, and the air
      speed cap becomes LaunchMaxAirSpeed. A grounded player is left untouched. */
  function LaunchPlayer(p: Player.PlayerState, forward: Vec3): (r: Player.PlayerState)
    ensures p.isGrounded ==> r == p
    ensures !p.isGrounded ==>
      && r.velocity == Zero && r.moveDirection == Zero
      && r.kicks == p.kicks + [Player.LaunchKick(Neg(Scale(forward, LaunchForce)))]
      && r.maxAirSpeed == LaunchMaxAirSpeed
    // a launch changes nothing but the velocity, the move direction, the log and the air cap
    ensures !p.isGrounded ==>
      r.(velocity := p.velocity, moveDirection := p.moveDirection, kicks := p.kicks,
         maxAirSpeed := p.maxAirSpeed) == p
    ensures r.state == p.state && r.isGrappling == p.isGrappling && r.spawnPos == p.spawnPos
  {
    if !Player.GetIsGrounded(p) then
      var launchDirection := Scale(forward, LaunchForce);
      var q := Player.SetMoveDirection(p.(velocity := Zero), Zero);
      var q' := q.(kicks := q.kicks + [Player.LaunchKick(Neg(launchDirection))]);
      Player.SetMaxAirSpeed(q', LaunchMaxAirSpeed)
    else
      p
  }

  /** The rays of one shot: exactly Projectiles of them, the i-th with the outcome
      `cast(i)` the engine reports for its randomly spread direction. */
  function Rays(cast: nat -> Hitscan.RayHit): (rays: seq<Hitscan.RayHit>)
    ensures |rays| == Projectiles
    ensures forall i :: 0 <= i < |rays| ==> rays[i] == cast(i)
  {
    seq(Projectiles, (i: nat) => cast(i))
  }

  /** Shoot: the effects of every ray of the shot, in casting order. Each enemy
      takes Damage once per ray that hits it and each other rigid body is pushed
      once per ray that hits it. */
  function Shoot(cast: nat -> Hitscan.RayHit, forward: Vec3): (effects: seq<Hitscan.Effect>)
    ensures Hitscan.TotalDamage(effects) == Hitscan.EnemyHits(Rays(cast)) as real * Damage
    ensures Hitscan.TotalDamage(effects) <= Projectiles as real * Damage
    ensures Hitscan.Pushes(effects) == Hitscan.BodyHits(Rays(cast))
    ensures |effects| <= Projectiles
    ensures forall t: nat :: Hitscan.DamageTo(t, effects) == Hitscan.EnemyHitsOn(t, Rays(cast)) as real * Damage
    ensures forall t: nat :: Hitscan.PushesTo(t, effects) == Hitscan.BodyHitsOn(t, Rays(cast))
    ensures forall e :: e in effects && e.Push? ==> e.impulse == Scale(forward, HitForce)
    ensures forall e :: e in effects && e.Damage? ==> e.amount == Damage
  {
    var rays := Rays(cast);
    Hitscan.ShotAmounts(rays, forward, HitForce, Damage);
    Hitscan.ShotTargets(rays, forward, HitForce, Damage);
    Hitscan.DamageBound(rays, forward, HitForce, Damage);
    Hitscan.ShotPushes(rays, forward, HitForce, Damage);
    Hitscan.ShootRays(rays, forward, HitForce, Damage)
  }

  /** Update: the fire/reload decision on the cooldown as it stood, the launch before
      the shot, and then the cooldown count-down. */
  function Update(g: Gun, p: Player.PlayerState, t: Trigger, dt: real, cast: nat -> Hitscan.RayHit, forward: Vec3): (r: FrameResult)
    ensures r.fired <==> CanFire(g, t)
    ensures r.fired ==> r.gun.ammo == g.ammo - 1 && r.gun.cooldown == FireRate - dt && !r.gun.reloading
    ensures r.fired ==> r.player == LaunchPlayer(p, forward) && r.effects == Shoot(cast, forward)
    ensures !r.fired ==> r.player == p && r.effects == [] && r.gun.ammo == g.ammo
    ensures !r.fired ==> (r.gun.reloading <==> g.reloading || WantsReload(g, AmmoCapacity, t))
    ensures !r.fired ==> r.gun.cooldown == CountDown(g, dt).cooldown
    ensures InBounds(g, AmmoCapacity) ==> InBounds(r.gun, AmmoCapacity)
  {
    var d := Decide(g, AmmoCapacity, FireRate, t);
    var player := if d.fired then LaunchPlayer(p, forward) else p;
    var effects := if d.fired then Shoot(cast, forward) else [];
    FrameResult(CountDown(d.gun, dt), player, d.fired, effects)
  }

  /** A grounded player is never launched, whether or not the shot goes off. */
  lemma GroundedNeverLaunched(g: Gun, p: Player.PlayerState, t: Trigger, dt: real, cast: nat -> Hitscan.RayHit, forward: Vec3)
    requires p.isGrounded
    ensures Update(g, p, t, dt, cast, forward).player == p
  {
  }

  /** The inputs of one frame. */
  datatype Input = Input(trigger: Trigger, dt: real, cast: nat -> Hitscan.RayHit, forward: Vec3)

  /** Frames run back to back with no reload completing in between: the final
      weapon and the number of shots fired. */
  function Run(g: Gun, p: Player.PlayerState, frames: seq<Input>): (Gun, nat)
    decreases |frames|
  {
    if |frames| == 0 then (g, 0)
    else
      var f := frames[0];
      var r := Update(g, p, f.trigger, f.dt, f.cast, f.forward);
      var rest := Run(r.gun, r.player, frames[1..]);
      (rest.0, rest.1 + (if r.fired then 1 else 0))
  }

  /** The magazine bounds hold over any run, and the shots fired never exceed the
      rounds that were loaded. */
  lemma {:induction false} ShotsSpendRounds(g: Gun, p: Player.PlayerState, frames: seq<Input>)
    requires InBounds(g, AmmoCapacity)
    ensures Run(g, p, frames).1 <= g.ammo
    ensures Run(g, p, frames).0.ammo == g.ammo - Run(g, p, frames).1
    ensures InBounds(Run(g, p, frames).0, AmmoCapacity)
    decreases |frames|
  {
    if |frames| > 0 {
      var f := frames[0];
      var r := Update(g, p, f.trigger, f.dt, f.cast, f.forward);
      ShotsSpendRounds(r.gun, r.player, frames[1..]);
    }
  }

  /** A point-blank shot with every ray on one enemy at the default health of 50:
      the six rays deal 60, leaving -10, and the enemy's next health check destroys
      it and credits the kill. */
  lemma PointBlankKill(p: Player.PlayerState, forward: Vec3)
    ensures var cast := (i: nat) => Hitscan.Hit(0, true, true);
      var enemies := map[0 := Enemy.Start(Enemy.DefaultHealth)];
      var after := Hitscan.Deliver(enemies, Shoot(cast, forward))[0];
      && after.currentHealth == -10.0
      && Enemy.CheckHealth(after, p).0.destroyed
      && Enemy.CheckHealth(after, p).1.enemiesKilled == p.enemiesKilled + 1
  {
    var cast := (i: nat) => Hitscan.Hit(0, true, true);
    var rays := Rays(cast);
    var effects := Shoot(cast, forward);
    Hitscan.AllRaysOnOne(rays, 0, forward, HitForce, Damage);
    Hitscan.RepeatIsProduct(Projectiles, Damage);
    Hitscan.DeliverSubtracts(map[0 := Enemy.Start(Enemy.DefaultHealth)], effects, 0);
  }

  /** The launch keeps the player controller's invariant. */
  lemma LaunchKeepsValid(p: Player.PlayerState, forward: Vec3)
    requires Player.Valid(p)
    ensures Player.Valid(LaunchPlayer(p, forward))
  {
  }

  /** A frame of the shotgun never ends a reload: only the animation event does. */
  lemma UpdateNeverEndsReload(g: Gun, p: Player.PlayerState, t: Trigger, dt: real, cast: nat -> Hitscan.RayHit, forward: Vec3)
    requires g.reloading
    ensures var r := Update(g, p, t, dt, cast, forward);
      r.gun.reloading && !r.fired && r.gun.ammo == g.ammo
  {
  }

  /** So with no OnEnable to clear it, a reload that never completes keeps the
      shotgun from firing for any number of frames. */
  lemma {:induction false} StuckWhileReloading(g: Gun, p: Player.PlayerState, frames: seq<Input>)
    requires g.reloading
    ensures Run(g, p, frames).0.reloading
    ensures Run(g, p, frames).1 == 0
    ensures Run(g, p, frames).0.ammo == g.ammo
    decreases |frames|
  {
    if |frames| > 0 {
      var f := frames[0];
      var r := Update(g, p, f.trigger, f.dt, f.cast, f.forward);
      UpdateNeverEndsReload(g, p, f.trigger, f.dt, f.cast, f.forward);
      StuckWhileReloading(r.gun, r.player, frames[1..]);
    }
  }
}

=== FILE: weapon.dfy ===
/** The ammunition, cooldown and reload state both hitscan weapons keep, and the
    guarded fire/reload decision they share. Besides their constants, the pistol
    and the shotgun differ in whether the cooldown counts down before or after the
    decision, and in OnEnable, which only the pistol has. */
module Weapon {

  /** `ammo` is the rounds left, `cooldown` the fire-rate timer, `reloading` whether a
      reload animation is under way. */
  datatype Gun = Gun(ammo: int, cooldown: real, reloading: bool)

  /** The inputs a weapon reads in one frame. */
  datatype Trigger = Trigger(
    fireDown: bool,    // left mouse button pressed this frame
    reloadDown: bool)  // R pressed this frame

  /** The ammunition bounds every step keeps. */
  predicate InBounds(g: Gun, capacity: int)
  {
    0 <= g.ammo <= capacity
  }

  /** The fire guard: a click, the cooldown run out, a round left, no reload. */
  predicate CanFire(g: Gun, t: Trigger)
  {
    t.fireDown && g.cooldown <= 0.0 && g.ammo > 0 && !g.reloading
  }

  /** The reload guard (`&&` binding tighter than `||`): R with rounds missing, or a
      click on an empty weapon that is not already reloading. */
  predicate WantsReload(g: Gun, capacity: int, t: Trigger)
  {
    (t.reloadDown && g.ammo < capacity) || (t.fireDown && g.ammo == 0 && !g.reloading)
  }

  /** Start: a full magazine, no cooldown, not reloading. */
  function Load(capacity: int): (g: Gun)
    requires capacity >= 0
    ensures InBounds(g, capacity) && g.ammo == capacity
    ensures !g.reloading && g.cooldown <= 0.0
  {
    Gun(capacity, 0.0, false)
  }

  /** The fire-rate timer counts down only while it is positive. */
  function CountDown(g: Gun, dt: real): (r: Gun)
    ensures g.cooldown > 0.0 ==> r.cooldown == g.cooldown - dt
    ensures g.cooldown <= 0.0 ==> r.cooldown == g.cooldown
    ensures dt >= 0.0 ==> r.cooldown <= g.cooldown
    ensures r.ammo == g.ammo && r.reloading == g.reloading
  {
    if g.cooldown > 0.0 then g.(cooldown := g.cooldown - dt) else g
  }

  /** Reload: starts the reload animation; the rounds are unchanged until it ends. */
  function Reload(g: Gun): (r: Gun)
    ensures r.reloading && r.ammo == g.ammo && r.cooldown == g.cooldown
  {
    g.(reloading := true)
  }

  /** Reloaded, the animation event: a full magazine and the weapon usable again,
      whatever the magazine held before. */
  function Reloaded(g: Gun, capacity: int): (r: Gun)
    requires capacity >= 0
    ensures !r.reloading && r.ammo == capacity && InBounds(r, capacity)
    ensures r.cooldown == g.cooldown
  {
    g.(reloading := false, ammo := capacity)
  }

  /** OnEnable (the pistol's only): switching to the weapon abandons any reload in
      progress without refilling it. */
  function OnEnable(g: Gun): (r: Gun)
    ensures !r.reloading && r.ammo == g.ammo && r.cooldown == g.cooldown
  {
    g.(reloading := false)
  }

  /** The outcome of one fire/reload decision. */
  datatype Decision = Decision(gun: Gun, fired: bool)

  /** The shared decision: fire if the fire guard holds (one round spent and the
      cooldown restarted), else reload if the reload guard holds, else nothing. Fire
      and reload never both happen in one frame. */
  function Decide(g: Gun, capacity: int, fireRate: real, t: Trigger): (d: Decision)
    ensures d.fired <==> CanFire(g, t)
    ensures d.fired ==> d.gun == Gun(g.ammo - 1, fireRate, false)
    ensures !d.fired && WantsReload(g, capacity, t) ==> d.gun == Reload(g)
    ensures !d.fired && !WantsReload(g, capacity, t) ==> d.gun == g
    ensures InBounds(g, capacity) ==> InBounds(d.gun, capacity)
  {
    if CanFire(g, t) then Decision(g.(cooldown := fireRate, ammo := g.ammo - 1), true)
    else if WantsReload(g, capacity, t) then Decision(Reload(g), false)
    else Decision(g, false)
  }

  /** Reloading then finishing the reload is a full, usable magazine whatever state
      the weapon was in, and finishing twice is finishing once. */
  lemma ReloadRoundTrip(g: Gun, capacity: int)
    requires capacity >= 0
    ensures Reloaded(Reload(g), capacity) == Gun(capacity, g.cooldown, false)
    ensures Reloaded(Reloaded(g, capacity), capacity) == Reloaded(g, capacity)
  {
  }

  /** A click on an empty weapon that is not reloading never fires; it starts a
      reload. */
  lemma EmptyClickReloads(g: Gun, capacity: int, fireRate: real, t: Trigger)
    requires g.ammo == 0 && !g.reloading && t.fireDown
    ensures !Decide(g, capacity, fireRate, t).fired
    ensures Decide(g, capacity, fireRate, t).gun.reloading
  {
  }

  /** While reloading nothing fires, whatever the inputs. */
  lemma ReloadingNeverFires(g: Gun, capacity: int, fireRate: real, t: Trigger)
    requires g.reloading
    ensures !Decide(g, capacity, fireRate, t).fired
    ensures Decide(g, capacity, fireRate, t).gun.ammo == g.ammo
  {
  }
}

=== FILE: weapon_controller.dfy ===
/** The weapon selector: number keys pick a weapon (H holsters), and every frame the
    selection is mapped onto which weapon objects are active and whether the ammo
    counter is shown. */
module WeaponController {

  datatype Selection = Rifle | Pistol | Shotgun | Holster

  /** The selection keys pressed this frame. */
  datatype Keys = Keys(alpha1: bool, alpha2: bool, alpha3: bool, h: bool)

  /** Which weapon objects are active, and whether the ammo text is enabled. */
  datatype Loadout = Loadout(rifle: bool, pistol: bool, shotgun: bool, ammoText: bool)

  /** Whether the loadout has the given weapon active (Holster names no weapon). */
  function Active(l: Loadout, w: Selection): bool
  {
    match w
    case Rifle => l.rifle
    case Pistol => l.pistol
    case Shotgun => l.shotgun
    case Holster => false
  }

  /** GetInputs: the first pressed key in the order 1, 2, 3, H wins; with no key the
      selection stays. */
  function GetInputs(s: Selection, k: Keys): (r: Selection)
    ensures k.alpha1 ==> r == Rifle
    ensures !k.alpha1 && k.alpha2 ==> r == Pistol
    ensures !k.alpha1 && !k.alpha2 && k.alpha3 ==> r == Shotgun
    ensures !k.alpha1 && !k.alpha2 && !k.alpha3 && k.h ==> r == Holster
    ensures !(k.alpha1 || k.alpha2 || k.alpha3 || k.h) ==> r == s
  {
    if k.alpha1 then Rifle
    else if k.alpha2 then Pistol
    else if k.alpha3 then Shotgun
    else if k.h then Holster
    else s
  }

  /** StateController: the loadout after the frame depends on the selection only, not
      on what was active before. A weapon is active exactly when it is the selection,
      so at most one is; the ammo text shows exactly when a weapon is out. */
  function StateController(s: Selection, before: Loadout): (l: Loadout)
    ensures forall w :: Active(l, w) <==> w == s && s != Holster
    ensures l.ammoText <==> s != Holster
    ensures s == Holster ==> !l.rifle && !l.pistol && !l.shotgun && !l.ammoText
    ensures !(l.rifle && l.pistol) && !(l.rifle && l.shotgun) && !(l.pistol && l.shotgun)
  {
    match s
    case Rifle => Loadout(true, false, false, true)
    case Pistol => Loadout(false, true, false, true)
    case Shotgun => Loadout(false, false, true, true)
    case Holster => Loadout(false, false, false, false)
  }

  /** The loadout names back the selection: from the active weapon and the ammo text
      the selection can be recovered. */
  function SelectionOf(l: Loadout): Selection
  {
    if l.rifle then Rifle
    else if l.pistol then Pistol
    else if l.shotgun then Shotgun
    else Holster
  }

  /** Update: read the keys, then apply the selection. The active weapon is the
      selection, and with no key pressed it is the weapon that was selected before. */
  function Update(s: Selection, before: Loadout, k: Keys): (r: (Selection, Loadout))
    ensures r.0 == GetInputs(s, k)
    ensures r.1 == StateController(r.0, before)
    ensures SelectionOf(r.1) == r.0
    ensures forall w :: Active(r.1, w) <==> w == r.0 && r.0 != Holster
    ensures !(k.alpha1 || k.alpha2 || k.alpha3 || k.h) ==> r.0 == s && SelectionOf(r.1) == s
  {
    var s' := GetInputs(s, k);
    (s', StateController(s', before))
  }

  /** Applying the selection twice is applying it once, and the result does not
      depend on the loadout it started from. */
  lemma StateControllerIdempotent(s: Selection, a: Loadout, b: Loadout)
    ensures StateController(s, StateController(s, a)) == StateController(s, a)
    ensures StateController(s, a) == StateController(s, b)
  {
  }

  lemma LoadoutDeterminesSelection(s: Selection, before: Loadout)
    ensures SelectionOf(StateController(s, before)) == s
  {
  }

  /** Reading the same keys again selects nothing new. */
  lemma GetInputsIdempotent(s: Selection, k: Keys)
    ensures GetInputs(GetInputs(s, k), k) == GetInputs(s, k)
  {
  }

  /** Pressing the same keys on two frames in a row gives the same selection and
      loadout as pressing them once. */
  lemma SameKeysTwice(s: Selection, before: Loadout, k: Keys)
    ensures var once := Update(s, before, k);
      Update(once.0, once.1, k) == once
  {
    GetInputsIdempotent(s, k);
    StateControllerIdempotent(GetInputs(s, k), before, StateController(GetInputs(s, k), before));
  }
}
